=== FILE: README.md ===
# uca sequence-diagram core in Dafny

This project models the core of `uca`, a tool that measures use-case
descriptions written as Mermaid sequence diagrams. The core has three parts:

- A diagram's leading `actor`/`participant` declarations become **entities**.
- The remaining lines are parsed by recursive descent into a forward-linked
  **step chain** of `Interaction`, `Loop` and `Fork` steps. Loop bodies and
  Fork branches are nested chains, and their block boundaries are found by
  two depth-counting **scans**.
- The **metrics** are read off the chain: the interaction count, the
  user-system level interaction count, the consecutive-interaction count and
  the entity counts.

Everything is immutable data and pure functions.

| module | file | models |
|---|---|---|
| `Wrappers` | `Wrappers.dfy` | `Option`, `Result` and the failure kinds. Every Python `IndexError` of the core becomes a `Failure`. `MapResult` and `Collect` are loops that stop at the first failure. |
| `Text` | `Text.dfy` | `strip`, `startswith`, `endswith`, `in`, `find`, `split` and `split(..)[k]` on `seq<char>`. |
| `Entities` | `Entity.dfy` | `structure/entity.py`: parsing a declaration line, and `__repr__`. |
| `Steps` | `Step.dfy` | `structure/step.py` and its subclasses as one closed datatype with an optional successor. |
| `Interactions` | `Interaction.dfy` | `structure/interaction.py`: parsing an interaction line, resolving endpoints, and `__repr__`. |
| `Loops` | `Loop.dfy` | `structure/loop.py`: the loop condition. |
| `Forks` | `Fork.dfy` | `structure/fork.py`: branch conditions, and the insertion-ordered dict of branches. |
| `Scanner` | `Scanner.dfy` | `find_end_of_loop` and `find_alternatives`. |
| `Parser` | `Parser.dfy` | `parse_sequence_diagram`. |
| `Metrics` | `Metrics.dfy` | `count_interactions`, `count_consecutive_interactions` and `get_last_step` of the three step kinds. |
| `UseCases` | `UseCase.dfy` | `structure/usecase.py`'s metric getters, and the declaration loop of `parse_use_case`. |
| `Examples` | `Examples.dfy` | Worked instances of the scans and the metrics. |

## Design

**Tokens.** Every reading the parser makes of a line depends on that line
alone, so `Parser.Tokenize` reads each line once into a `Token`. A token
holds:
- how the scans classify the line;
- which block it opens;
- the line read as an interaction, as a `loop` line and as a branch line,
  each as a `Result`.

The recursive descent `Parser.ParseSteps` then runs over tokens and consults
a reading only where the source performs it. So a failure surfaces at the
point where the source raises. `Parser.Parse(lines, ents)` is
`ParseSteps(Tokens(lines, ents))`. The lemmas `FirstToken`,
`AfterFirstToken`, `TokensSlice`, `FlatChain` and `UnterminatedLoop`
connect token-level statements back to lines.

**Failure order.** Evaluation order matches the source, so the first failure
is the source's first `IndexError`:
- A Loop parses its body before its condition is read.
- A Fork parses all its branches before any condition is read.
- An interaction resolves its source before it looks for the arrow.

**Fork branches.** Python's `dict` becomes a sequence of `Branch(condition,
head)` with distinct conditions:
- `Forks.Upsert` is `d[k] = v`: an existing key keeps its position and gets
  the new value, and a new key goes last.
- `Forks.BranchMap` is the whole constructor loop. It is characterised by two
  reference functions: `FirstOccurrences` gives the key order and `LastWrite`
  gives each key's value.

**Reference definitions for the metrics.**
- The interaction counts are measured against `Metrics.Messages`, the flat
  list of every message in the chain.
- `get_last_step` is measured against `Metrics.MainPath`, which follows loop
  bodies and first branches.
- The consecutive count is measured against `Metrics.Adjacent`, which counts
  adjacent pairs in a flat list of messages, applied to the main path. To
  that, `Metrics.OffPath` adds the branches the main path skips: every
  branch of a Fork but the first, each counted from the context before the
  Fork.

## Behaviour

- An identifier declared twice is not an error: it resolves to its first declaration (`Interactions.FirstMatch`).
- The label of an interaction is only the piece between the first and second ` : `.
- A declaration with an empty identifier or name is accepted.
- Every failure is an `IndexError` of the source, a missing label included. A line without ` : `, such as `a->>b:m1`, does not parse: it fails with UnknownEntity, since its target is read as `b:m1`, unless that is a declared identifier, and then with MissingLabel.
- Blocks nest to any depth: the scans count block openers against `end` lines without a limit.
- When every line of a use case is a declaration, the declaration loop runs past the last line and fails with NoStepLines.

## Model

| member | source | states |
|---|---|---|
| Text.Split | src/processing/structure/entity.py:18 | The pieces of `split(sep)` contain no `sep` and re-join with `sep` to the input. Every cut is at the leftmost occurrence: no piece, followed by all but the last character of `sep`, contains `sep`. There is a single piece exactly when `sep` does not occur. |
| Text.SplitUnique | src/processing/structure/interaction.py:20 | Any list of pieces that re-joins to the input, is free of `sep` and is cut leftmost is exactly `split(sep)`, also for a separator that overlaps itself, such as ` : `. |
| Text.Piece | src/processing/structure/entity.py:22 | `split(sep)[k]` exists exactly when `k` is in range, and is then piece `k` of the split. Piece 0 always exists, and piece 1 exists exactly when `sep` occurs. |
| Text.StripFixedPoint | src/processing/structure/entity.py:27 | `strip` leaves a string unchanged exactly when neither end is blank. |
| Text.StripBlanks | src/processing/structure/interaction.py:31 | `strip` removes blank padding around an unpadded core and nothing else. |
| Text.StripKeepsPrefix | src/processing/structure/entity.py:15 | For a line with no leading blank, the stripped line starts with a prefix ending in a non-blank exactly when the line does. |
| Text.StripKeepsAbsence | src/processing/structure/interaction.py:38 | Stripping a string cannot create an occurrence of a separator. |
| Entities.ParseEntity | src/processing/structure/entity.py:11-33 | The actor flag is true exactly when the stripped line starts with `actor`. The parse fails with MissingKeyword exactly when the part before ` AS ` lacks the keyword, and with MissingSeparator exactly when the keyword is present but ` AS ` is not. The identifier is the text after the keyword. `explicit` holds exactly when the name part neither starts with `(` nor ends with `)`. An explicit name is the stripped part; otherwise the name is that part with its end characters dropped. |
| Entities.DeclarationParts | src/processing/structure/entity.py:18 | A declaration line splits at ` AS ` into exactly its head and its name text. |
| Entities.DeclarationActor | src/processing/structure/entity.py:15 | The actor flag read back from a declaration line is the entity's own. |
| Entities.ParseDeclarationLine | src/processing/structure/entity.py:11-33 | Round trip: the declaration line of any declarable entity parses back to that entity. |
| Entities.RenderDoesNotReparse | src/processing/structure/entity.py:35-36 | `Entities.Render`, the model of `repr`, writes a lower-case ` as `, so its output does not parse as a declaration unless the name text holds ` AS ` or starts with `AS `. Stated for identifiers, other than `AS`, made of letters, digits and `_`. |
| Interactions.FirstMatch | src/processing/structure/interaction.py:31-35 | Endpoint lookup picks the earliest declared entity with the identifier and reports none exactly when no entity has it. |
| Interactions.Resolve | src/processing/structure/interaction.py:31-35 | Resolution succeeds exactly when some declared entity has the identifier, and the result is the first declared entity with that identifier. Repeats are not an error. |
| Interactions.ParseInteraction | src/processing/structure/interaction.py:15-38 | Success exactly when both trimmed endpoints resolve, an arrow separates them and a ` : ` label separator exists. `returns` is true exactly when the segment before the first ` : ` contains `-->>`. The label is the stripped second piece, so it never holds a ` : `. |
| Interactions.ReturnMarker | src/processing/structure/interaction.py:23-28 | The endpoint segment of a rendered line contains `-->>` exactly when the arrow is the returning one. |
| Interactions.EndpointParts | src/processing/structure/interaction.py:26-28 | The endpoint segment splits at its arrow into the two blank-padded identifiers. |
| Interactions.RenderedParts | src/processing/structure/interaction.py:20 | A rendered line splits at ` : ` into exactly its endpoint segment and its label. |
| Interactions.RenderRoundTrip | src/processing/structure/interaction.py:43-44 | Round trip: `Interactions.Render`, the model of `repr`, applied to a message with identifier endpoints and an unpadded, non-empty label free of ` : ` parses back to the same message. |
| Loops.LoopCondition | src/processing/structure/loop.py:13-16 | Success exactly when the stripped line contains `loop `. The condition is unpadded and free of `loop `. |
| Loops.LoopLineRoundTrip | src/processing/structure/loop.py:15-16 | The line `loop <c>` gives condition `c` back for any unpadded, non-empty `c` free of `loop `. |
| Forks.ForkCondition | src/processing/structure/fork.py:14-19 | The keyword is `alt ` for a line whose stripped form starts with `alt`, and `else ` otherwise. Reading succeeds exactly when the stripped line contains that keyword, and the condition never contains it. |
| Forks.BranchLineRoundTrip | src/processing/structure/fork.py:14-19 | The lines `alt <c>` and `else <c>` give condition `c` back. |
| Forks.Lookup | src/processing/structure/fork.py:21 | A dict lookup finds a value exactly when the key is present. |
| Forks.Upsert | src/processing/structure/fork.py:21 | `d[k] = v` afterwards maps `k` to `v` and keeps every other key's value. An existing key keeps its position and a new key goes last. Keys stay distinct, and every stored chain is `v` or was stored before. |
| Forks.BranchMap | src/processing/structure/fork.py:11-21 | The dict built by the constructor loop has the conditions in order of first occurrence, all distinct, and each maps to the chain written last for it. |
| Forks.BranchMapHeads | src/processing/structure/fork.py:14-21 | Every chain stored in the dict is one of the chains written. |
| Forks.FirstOccurrencesShape | src/processing/structure/fork.py:12-21 | The dict never has more keys than writes. Its keys are exactly the written conditions, and its first key is the first written. |
| Forks.BranchMapDistinct | src/processing/structure/fork.py:14-21 | With pairwise different conditions the dict holds the branches exactly in order, one per alternative. |
| Forks.BuildBranches | src/processing/structure/fork.py:11-21 | The branches build exactly when every condition line reads, and otherwise fail with the first failing reading. There are at most as many branches as alternatives, with distinct conditions; the first is the `alt` line's condition, and every head is one of the parsed chains. |
| Forks.BuildBranchesDistinct | src/processing/structure/fork.py:14-21 | Distinct conditions give branch `i` = (condition `i`, chain `i`). |
| Forks.BuildBranchesCollapse | src/processing/structure/fork.py:14-21 | Repeated conditions collapse as dict keys do: one branch per distinct condition at its first position, holding the last chain written for it. |
| Scanner.Classify | src/processing/util/sequencediagramparser.py:21-28 | How the scans read a line, in their `if`/`elif` order. An `end` prefix is tested first, then `alt`/`loop`, then `else`, all on the stripped line. |
| Scanner.ScanEnd | src/processing/util/sequencediagramparser.py:16-33 | The loop of `find_end_of_loop` stops only on an `end` line, at or after its start, and otherwise fails with UnterminatedBlock. |
| Scanner.ScanEndFindsFirstClose | src/processing/util/sequencediagramparser.py:16-33 | Measured against the reference nesting depth `Depth`, the scan stops at the first `end` met at depth 0, and fails exactly when there is none. |
| Scanner.FindEndOfLoop | src/processing/util/sequencediagramparser.py:8-33 | `find_end_of_loop` returns an index into the lines, or fails with UnterminatedBlock (an empty list included). |
| Scanner.EndOfLoopIsFirstClose | src/processing/util/sequencediagramparser.py:8-33 | `find_end_of_loop` returns the first line that closes the block at depth 0, and fails exactly when no line does. |
| Scanner.ScanAlternatives | src/processing/util/sequencediagramparser.py:41-60 | The loop of `find_alternatives` succeeds exactly when the `end` scan from the same state succeeds. Its result is non-empty and strictly increasing, and ends with the index that scan returns. |
| Scanner.ScanAlternativesCorrect | src/processing/util/sequencediagramparser.py:41-60 | Started with an exact record of the separators seen so far, the scan's answer is correct: increasing, ending at the first depth-0 `end`, and holding exactly the depth-0 `else` lines before it. |
| Scanner.AlternativesEndWithEndOfLoop | src/processing/util/sequencediagramparser.py:35-60 | `find_alternatives` fails exactly when `find_end_of_loop` does. Its last index is `find_end_of_loop`'s result, because `else` never changes the depth. |
| Scanner.AlternativesAreSeparators | src/processing/util/sequencediagramparser.py:50-52 | The indices before the last are exactly the depth-0 `else` lines before the closing `end`. |
| Parser.OpenerOf | src/processing/util/sequencediagramparser.py:65-96 | The first line opens a Fork exactly when its stripped form starts with `alt`. It opens a Loop exactly when the stripped form starts with `loop` and not `alt`. |
| Parser.Bounds | src/processing/util/sequencediagramparser.py:72-73 | The branch bounds are 0 followed by each alternative index plus one, and they stay increasing. |
| Parser.Parse | src/processing/util/sequencediagramparser.py:63-104 | An empty block fails with EmptyBlock. A parsed chain is well formed (every Fork has at least one branch, with distinct conditions) and has at most one step per line. |
| Parser.ParseSteps | src/processing/util/sequencediagramparser.py:63-104 | The same properties as `Parser.Parse`, stated over tokens. |
| Parser.ContinueSteps | src/processing/util/sequencediagramparser.py:100-102 | A successor is attached exactly when tokens remain, and it is the parse of the remaining tokens. The step is otherwise unchanged, and a failure is the remainder's failure. |
| Parser.ParseHead | src/processing/util/sequencediagramparser.py:65-96 | A Fork exactly for an `alt` opener and a Loop exactly for a `loop` opener. Any other line is one Interaction consuming one line, or that line's failure. A block without a matching `end` fails with UnterminatedBlock. |
| Parser.ParseFork | src/processing/util/sequencediagramparser.py:70-87 | A parsed Fork resumes one line past the matching `end`, and its first branch has the `alt` line's condition. Without an `end` the parse fails with UnterminatedBlock. |
| Parser.ParseLoop | src/processing/util/sequencediagramparser.py:88-93 | A parsed Loop resumes one line past the matching `end` and has the condition read from the `loop` line. Without an `end` the parse fails with UnterminatedBlock. |
| Parser.BranchBody | src/processing/util/sequencediagramparser.py:81 | Branch `k` holds the lines strictly between bound `k` and bound `k + 1`. |
| Parser.ParseBranches | src/processing/util/sequencediagramparser.py:79-83 | One well-formed chain per branch, in order. |
| Parser.LoopParts | src/processing/util/sequencediagramparser.py:88-102 | A parsed Loop has the parse of the lines up to its `end` as its body and the opener's condition. The lines after the `end`, if any, form its successor; otherwise it has none. |
| Parser.ForkParts | src/processing/util/sequencediagramparser.py:70-102 | An `alt` block parses only when its alternatives scan succeeds. A parsed one is a Fork whose successor is the parse of the lines after its `end`, or none when the `end` is the last line. When the branch lines carry pairwise different conditions, it has one branch per alternative, in order. Branch `i` holds the condition of branch line `i` and the parse of the lines after it up to the next branch line. |
| Parser.ParseBranchesCollect | src/processing/util/sequencediagramparser.py:79-83 | Parsing the branches in order, stopping at the first failure, is collecting the independent parses of each branch body. |
| Parser.UnterminatedLoop | src/processing/util/sequencediagramparser.py:88-90 | A `loop` line whose block has no depth-0 `end` makes the whole parse fail with UnterminatedBlock. |
| Parser.FlatSteps | src/processing/util/sequencediagramparser.py:94-102 | Tokens none of which opens a block, each a valid interaction, parse into the chain of those interactions, one step per token. |
| Parser.FlatChain | src/processing/util/sequencediagramparser.py:94-102 | `n` lines none of which opens a block, each a valid interaction, parse into the chain of those `n` interactions in order. |
| Parser.RenderedChain | src/processing/util/sequencediagramparser.py:94-102 | Printing a chain of interactions one `repr` per line and parsing the lines gives the chain back, if no rendered line begins like a block opener. |
| Metrics.Kept | src/processing/structure/interaction.py:52-57 | The user-level filter keeps at most every message, and without the user-level filter every message is kept. |
| Metrics.CountInteractions | src/processing/structure/interaction.py:51-61 | `count_interactions` counts exactly the messages of the chain that the filter keeps: loop bodies, every branch and all successors. |
| Metrics.CountBranches | src/processing/structure/fork.py:39-46 | A Fork counts the kept messages of every branch. |
| Metrics.MainPath | src/processing/structure/loop.py:46-50 | The path `get_last_step` follows (successors, loop bodies, first branches) holds at least one message. |
| Metrics.LastStep | src/processing/structure/fork.py:59-63 | `get_last_step` is the last interaction on that path. A Loop or Fork without a successor ends with its body's last step, or its first branch's. |
| Metrics.ConsecutiveForkFree | src/processing/structure/loop.py:35-44 | Without Forks, the consecutive count is the number of adjacent message pairs along the chain with loop bodies inlined. The body starts from the incoming context, and the successor continues from the body's last target. |
| Metrics.ConsecutiveSplit | src/processing/structure/fork.py:48-57 | For every well-formed chain, Forks included, the consecutive count is the adjacent message pairs along the main path plus `OffPath`. `OffPath` counts every branch of a Fork but the first in full, each from the context just before the Fork. The successor continues from the end of the first branch. |
| Metrics.ConsecutiveSplitBranches | src/processing/structure/fork.py:50-51 | The branches together count the sum of each branch's own count, every branch started from the same incoming context. |
| Metrics.ForkSideBranches | src/processing/structure/fork.py:48-57 | The branches after the first only add their own counts. A Fork counts as the same Fork with its first branch alone, successor included, plus those branches' counts from the context before the Fork. |
| Metrics.ConsecutiveBound | src/processing/structure/interaction.py:63-70 | Each interaction counts as consecutive at most once. Started without context, the count is strictly below the interaction count. |
| Metrics.ConsecutiveBoundBranches | src/processing/structure/fork.py:48-57 | With every branch started from the same context, the branches together add at most their own interaction count. |
| Metrics.ChainMessages | src/processing/structure/interaction.py:51-61 | A chain of plain interactions holds exactly its messages, in order, and that is also its main path. |
| Metrics.ChainMetrics | src/processing/structure/interaction.py:63-70 | On a flat chain, every message is counted, and a message is consecutive exactly when its source is the previous message's target. |
| UseCases.Filter | src/processing/structure/usecase.py:36-43 | The list comprehension keeps exactly the elements of the list that pass the test, each as many times as the list holds it, and drops the others. |
| UseCases.NumberOfEntities | src/processing/structure/usecase.py:25-45 | Each of the four flag combinations counts exactly the entities that meet the flags set. |
| UseCases.EntityFilterBounds | src/processing/structure/usecase.py:34-45 | With no flag, the count is all entities. Explicit actors ≤ actors ≤ all, and explicit actors ≤ explicit ≤ all. Actors + explicit ≤ all + explicit actors. |
| UseCases.NumberOfInteractions | src/processing/structure/usecase.py:47-56 | The count is the number of messages of the diagram the filter keeps. Without the user-level filter, that is every message, so the user-level count never exceeds the total. |
| UseCases.NumberOfConsecutiveInteractions | src/processing/structure/usecase.py:58-59 | Started without context, the count is the adjacent pairs along the main path plus what the side branches add, and it is below the number of messages. |
| UseCases.DeclarationCount | src/processing/eval_scenarios.py:31-37 | The declaration loop takes exactly the leading lines that start with `actor` or `participant`. |
| UseCases.ParseDeclarations | src/processing/eval_scenarios.py:30-37 | On success, one entity per leading declaration line, in order, and at least one line is left over. |
| UseCases.DeclarationsRunOut | src/processing/eval_scenarios.py:32-37 | The loop runs past the end, failing with NoStepLines, exactly when every line is a declaration that parses. A malformed declaration fails first with its own error. |
| UseCases.ParseUseCase | src/processing/eval_scenarios.py:29-42 | The use case keeps its identifiers and has one entity per leading declaration line. Its step chain is the parse of the lines after the declarations, against the parsed entities, and is well formed. |
| Examples.NestedLoopEnd | src/processing/util/sequencediagramparser.py:16-33 | After `loop A`, the lines `loop B`, `x->>y : m`, `end`, `end` close at index 3, the outer `end`. |
| Examples.NestedLoopUnterminated | src/processing/util/sequencediagramparser.py:18-31 | A nested block that takes the only `end` leaves the outer block unterminated. |
| Examples.TwoAlternatives | src/processing/util/sequencediagramparser.py:41-60 | After `alt c1`, the lines `a ->> b : m1`, `else c2`, `a ->> c : m2`, `end` give alternatives `[1, 3]`. |
| Examples.RequestReplyMetrics | src/processing/structure/usecase.py:56-59 | `u ->> s : request` then `s -->> u : reply`: two interactions, both user level, one consecutive. |

## Left out

- `print_indented` of every step kind and `UseCase.print`: console output only.
- `Step`'s base-class defaults (`step.py:12-27`): every variant overrides them, and the closed datatype has no fourth kind.
- The `predecessor` link: written by the parser and by each constructor, but read by no query.
- Input handling in `eval_scenarios.py` (file reading, directory scanning, argument parsing, the data frame and CSV export): I/O. So is the text clean-up of `parse_use_case` (dropping the fence lines, trailing newlines and blank lines). `UseCases.ParseUseCase` takes the cleaned lines.
- `strip`'s notion of whitespace: only space, tab, LF and CR count as blanks. Python also strips form feeds, vertical tabs and Unicode spaces.
- Python's recursion limit: `parse_sequence_diagram` recurses once per step, so a very long chain raises `RecursionError` in Python. The model has no depth limit.
- Exception classes: each `IndexError` is one `Failure` whose kind names the list that ran out. Kinds document the failure point and are not distinct exception types.
- The scans and the loop/fork equations are stated over tokens: `Scanner.ScanEnd`/`ScanAlternatives` over line kinds, and `Parser.LoopParts` and `ForkParts` over `Tokens(lines, ents)`, which `Parser.Parse` parses by definition. `FirstToken`, `AfterFirstToken`, `TokensSlice` and `KindsOfTokens` connect these back to lines.
- Examples.NestedLoopEnd: the worked examples are stated on the line kinds the scans read, and on messages for the metrics, not on literal diagram text.
- Parser.ForkParts: states one branch per alternative only when the branch conditions are pairwise different. With repeated conditions the collapse is stated one level down, by `Forks.BuildBranchesCollapse`.

=== FILE: Entity.dfy ===
/**
 Declared actors and participants (`src/processing/structure/entity.py`).

 A declaration line reads `actor <id> AS <name>` or `participant <id> AS <name>`;
 a name written in parentheses marks a generated (non-explicit) entity.
 */
module Entities {
  import opened Wrappers
  import opened Text

  datatype Entity = Entity(entid: string, name: string, actor: bool, explicit: bool)

  /** The keyword whose text after it is the identifier: `actor ` or `participant `. */
  function KeywordOf(actor: bool): string {
    if actor then "actor " else "participant "
  }

  /** A name part is explicit when it is neither opened by `(` nor closed by `)`. */
  predicate IsExplicitName(namepart: string) {
    !StartsWith(namepart, "(") && !EndsWith(namepart, ")")
  }

  /**
   Parse one declaration line. The actor flag looks at the stripped line; the
   identifier is the text between the first and second occurrence of the
   keyword in the part before ` AS `; the name part is the stripped text
   between the first and second ` AS `. A missing keyword is reported before a
   missing ` AS `, as the source evaluates them in that order.
   */
  function ParseEntity(text: string): (r: Result<Entity>)
    ensures var head := Split(text, " AS ")[0];
      var kw := KeywordOf(StartsWith(Strip(text), "actor"));
      && (r == Failure(MissingKeyword) <==> !Contains(head, kw))
      && (r == Failure(MissingSeparator) <==> Contains(head, kw) && !Contains(text, " AS "))
      && (r.Success? <==> Contains(head, kw) && Contains(text, " AS "))
    ensures r.Failure? ==> r.error == MissingKeyword || r.error == MissingSeparator
    ensures r.Success? ==> (r.value.actor <==> StartsWith(Strip(text), "actor"))
    ensures r.Success? ==> Piece(Split(text, " AS ")[0], KeywordOf(r.value.actor), 1) == Some(r.value.entid)
    ensures r.Success? ==>
      var namepart := Strip(Split(text, " AS ")[1]);
      && (r.value.explicit <==> IsExplicitName(namepart))
      && (r.value.explicit ==> r.value.name == namepart)
      && (!r.value.explicit && |namepart| >= 2 ==> namepart == [namepart[0]] + r.value.name + [namepart[|namepart| - 1]])
      && (!r.value.explicit && |namepart| < 2 ==> r.value.name == [])
  {
    var actor := StartsWith(Strip(text), "actor");
    var parts := Split(text, " AS ");
    match Piece(parts[0], KeywordOf(actor), 1)
    case None => Failure(MissingKeyword)
    case Some(entid) =>
      if |parts| < 2 then Failure(MissingSeparator)
      else
        var namepart := Strip(parts[1]);
        var explicit := IsExplicitName(namepart);
        Success(Entity(entid, if explicit then namepart else DropEnds(namepart), actor, explicit))
  }

  /** The name as it is written in a declaration: verbatim, or in parentheses when generated. */
  function NameText(e: Entity): string {
    if e.explicit then e.name else "(" + e.name + ")"
  }

  /** Python's `repr(entity)`: note the lower-case ` as `. */
  function Render(e: Entity): string {
    (if e.actor then "actor" else "participant") + " " + e.entid + " as " + NameText(e)
  }

  /** The declaration line an entity is written as in a scenario: `actor|participant <id> AS <name>`. */
  function DeclarationLine(e: Entity): string {
    KeywordOf(e.actor) + e.entid + " AS " + NameText(e)
  }

  /** The entities a declaration line can describe unambiguously. */
  predicate Declarable(e: Entity) {
    && IsIdent(e.entid) && e.entid != "AS"
    && Unpadded(NameText(e)) && !Contains(NameText(e), " AS ")
    && (e.explicit ==> IsExplicitName(e.name))
  }

  /** No ` AS ` starts inside `<keyword> <id>` of a declaration line. */
  lemma NoSeparatorInHead(kw: string, id: string, rest: string)
    requires |kw| > 0 && kw[|kw| - 1] == ' '
    requires forall i :: 0 <= i < |kw| - 1 ==> IsIdentChar(kw[i])
    requires IsIdent(id) && id != "AS"
    ensures forall j :: 0 <= j < |kw + id| ==> !OccursAt(kw + id + " AS " + rest, " AS ", j)
  {
    var s := kw + id + " AS " + rest;
    forall j | 0 <= j < |kw + id|
      ensures !OccursAt(s, " AS ", j)
    {
      if j < |kw| - 1 {
        assert s[j] == kw[j];
        NotAtForeignChar(s, " AS ", j);
      } else if j >= |kw| {
        assert s[j] == id[j - |kw|];
        NotAtForeignChar(s, " AS ", j);
      } else if |id| >= 3 {
        assert s[j + 3] == id[2];
        assert s[j..j + 4][3] == s[j + 3] != " AS "[3];
      } else if |id| == 2 {
        assert s[j + 1..j + 3] == id;
        assert s[j..j + 4][1..3] == s[j + 1..j + 3];
        assert " AS "[1..3] == "AS";
        assert " AS "[1..3] == "AS";
      } else {
        assert s[j + 2] == ' ';
        assert s[j..j + 4][2] == s[j + 2] != " AS "[2];
      }
    }
  }

  /** A declaration line splits at ` AS ` into its head and its name text. */
  lemma DeclarationParts(e: Entity)
    requires Declarable(e)
    ensures Split(DeclarationLine(e), " AS ") == [KeywordOf(e.actor) + e.entid, NameText(e)]
  {
    var kw := KeywordOf(e.actor);
    NoSeparatorInHead(kw, e.entid, NameText(e));
    SplitAfter(kw + e.entid, " AS ", NameText(e));
    SplitWhole(NameText(e), " AS ");
  }

  /** The identifier is what follows the keyword in the head. */
  lemma KeywordPiece(kw: string, id: string)
    requires |kw| > 0 && kw[|kw| - 1] == ' ' && IsIdent(id)
    ensures Piece(kw + id, kw, 1) == Some(id)
  {
    assert !Contains(id, kw) by {
      NotContainsMissingChar(id, kw, |kw| - 1);
    }
    assert [] + kw + id == kw + id;
    SplitAfter([], kw, id);
    SplitWhole(id, kw);
  }

  /** The actor flag read back from a declaration line is the entity's own. */
  lemma DeclarationActor(e: Entity)
    requires Declarable(e)
    ensures StartsWith(Strip(DeclarationLine(e)), "actor") == e.actor
  {
    StripKeepsPrefix(DeclarationLine(e), "actor");
  }

  /** The name text of a declarable entity reads back as its flag and name. */
  lemma NameTextReadsBack(e: Entity)
    requires Declarable(e)
    ensures IsExplicitName(NameText(e)) == e.explicit
    ensures (if e.explicit then NameText(e) else DropEnds(NameText(e))) == e.name
  {
    if !e.explicit {
      var nt := NameText(e);
      assert nt[..1] == "(";
      assert nt[1..|nt| - 1] == e.name;
    }
  }

  /** Parsing the declaration line of a declarable entity gives that entity back. */
  lemma ParseDeclarationLine(e: Entity)
    requires Declarable(e)
    ensures ParseEntity(DeclarationLine(e)) == Success(e)
  {
    var line := DeclarationLine(e);
    var parts := Split(line, " AS ");
    DeclarationParts(e);
    DeclarationActor(e);
    KeywordPiece(KeywordOf(e.actor), e.entid);
    assert Piece(parts[0], KeywordOf(e.actor), 1) == Some(e.entid);
    StripFixedPoint(NameText(e));
    assert Strip(parts[1]) == NameText(e);
    NameTextReadsBack(e);
  }

  /**
   The `repr` of an entity does not re-parse as a declaration: it writes a
   lower-case ` as `, so ` AS ` can only come from the name text, and only
   when that text holds ` AS ` or starts with `AS `.
   */
  lemma RenderDoesNotReparse(e: Entity)
    requires IsIdent(e.entid) && e.entid != "AS" && !Contains(" " + NameText(e), " AS ")
    ensures ParseEntity(Render(e)).Failure?
  {
    RenderLacksSeparator(e);
  }

  lemma RenderLacksSeparator(e: Entity)
    requires IsIdent(e.entid) && e.entid != "AS" && !Contains(" " + NameText(e), " AS ")
    ensures !Contains(Render(e), " AS ")
  {
    var kwText := if e.actor then "actor" else "participant";
    var a := kwText + " " + e.entid + " as";
    var b := " " + NameText(e);
    var s := Render(e);
    assert s == a + b;
    forall j | 0 <= j
      ensures !OccursAt(s, " AS ", j)
    {
      if j < |a| {
        NoSeparatorInRenderHead(kwText, e.entid, b, j);
      } else if OccursAt(s, " AS ", j) {
        assert s[j..j + 4] == b[j - |a|..j - |a| + 4];
        assert OccursAt(b, " AS ", j - |a|);
        assert false;
      }
    }
  }

  /** No ` AS ` starts inside `<keyword> <id> as` of a rendered entity, whatever follows. */
  lemma NoSeparatorInRenderHead(kw: string, id: string, b: string, j: nat)
    requires forall i :: 0 <= i < |kw| ==> kw[i] != ' '
    requires IsIdent(id) && id != "AS"
    requires j < |kw + " " + id + " as"|
    ensures !OccursAt(kw + " " + id + " as" + b, " AS ", j)
  {
    var s := kw + " " + id + " as" + b;
    var k := |kw|;
    if j < k {
      assert s[j] == kw[j];
      NotAtForeignChar(s, " AS ", j);
    } else if j == k {
      if |id| >= 3 {
        assert s[j..j + 4][3] == id[2] != " AS "[3];
      } else if |id| == 2 {
        assert s[j + 1..j + 3] == id;
        assert s[j..j + 4][1..3] == s[j + 1..j + 3];
        assert " AS "[1..3] == "AS";
      } else {
        assert s[j..j + 4][2] == ' ' != " AS "[2];
      }
    } else if j <= k + |id| {
      assert s[j] == id[j - k - 1];
      NotAtForeignChar(s, " AS ", j);
    } else if j == k + |id| + 1 {
      if j + 4 <= |s| {
        assert s[j + 1] == 'a';
        assert s[j..j + 4][1] == s[j + 1] != " AS "[1];
      }
    } else {
      assert s[j] == "as"[j - k - |id| - 2];
      NotAtForeignChar(s, " AS ", j);
    }
  }
}

=== FILE: Examples.dfy ===
/**
 Worked instances of the scans and the metrics on small diagrams. The scans
 are shown on the line kinds they read (`Classify` of each line), which
 keeps the string handling out of the way.
 */
module Examples {
  import opened Wrappers
  import opened Entities
  import opened Steps
  import opened Scanner
  import opened Metrics

  /**
   The lines after a `loop` opener, say `loop B`, `x->>y: m`, `end`, `end`:
   the nested loop takes the first `end`, so the block closes at index 3.
   */
  lemma NestedLoopEnd()
    ensures ScanEnd([OpenLine, PlainLine, EndLine, EndLine], 0, 0) == Success(3)
  {
    var ks := [OpenLine, PlainLine, EndLine, EndLine];
    assert ScanEnd(ks, 3, 0) == Success(3);
    assert ScanEnd(ks, 2, 1) == Success(3);
  }

  /** A nested block that takes the only `end` leaves the outer one unterminated. */
  lemma NestedLoopUnterminated()
    ensures ScanEnd([OpenLine, EndLine], 0, 0) == Failure(UnterminatedBlock)
  {
    var ks := [OpenLine, EndLine];
    assert ScanEnd(ks, 1, 1) == Failure(UnterminatedBlock);
  }

  /**
   The lines after an `alt` opener, say `x->>y: a`, `else B`, `y->>x: b`,
   `end`: one separator at index 1, and the closing `end` at index 3.
   */
  lemma TwoAlternatives()
    ensures ScanAlternatives([PlainLine, ElseLine, PlainLine, EndLine], 0, 0, []) == Success([1, 3])
  {
    var ks := [PlainLine, ElseLine, PlainLine, EndLine];
    assert [1] + [3] == [1, 3];
    assert ScanAlternatives(ks, 2, 0, [1]) == Success([1, 3]);
    assert [] + [1] == [1];
  }

  /** A request from a user to the system, answered by a reply. */
  function RequestReply(): (ms: seq<Message>)
    ensures |ms| == 2
  {
    var u := Entity("u", "User", true, true);
    var s := Entity("s", "System", false, true);
    [Message(u, s, false, "request"), Message(s, u, true, "reply")]
  }

  /**
   Both messages are user-system level interactions, and the reply
   continues from where the request ended.
   */
  lemma RequestReplyMessages()
    ensures Kept(RequestReply(), true) == 2
    ensures Adjacent(RequestReply(), None) == 1
  {
    var ms := RequestReply();
    assert ms[1..] == [ms[1]];
    assert Kept(ms[1..], true) == 1;
    assert Adjacent(ms[1..], Some(ms[0].target)) == 1;
  }

  /** The use-case metrics of the two-line diagram: two interactions, both user-level, one consecutive. */
  lemma RequestReplyMetrics()
    ensures CountInteractions(Chain(RequestReply()), false) == 2
    ensures CountInteractions(Chain(RequestReply()), true) == 2
    ensures Consecutive(Chain(RequestReply()), None) == 1
  {
    var ms := RequestReply();
    ChainMetrics(ms, None);
    ChainMessages(ms);
    RequestReplyMessages();
  }
}

=== FILE: Fork.dfy ===
/**
 Fork construction (`src/processing/structure/fork.py`, constructor): the
 branch conditions read from the `alt`/`else` lines and the insertion-ordered
 dict from condition to branch chain.
 */
module Forks {
  import opened Wrappers
  import opened Text
  import opened Steps

  /** The keyword a branch line's condition follows: `alt ` on an `alt` line, `else ` on any other. */
  function BranchKeyword(line: string): string {
    if StartsWith(Strip(line), "alt") then "alt " else "else "
  }

  /**
   The condition of an `alt` or `else` line: the text between the first and
   second occurrence of the keyword in the stripped line, not stripped again.
   */
  function ForkCondition(line: string): (r: Result<string>)
    ensures r.Success? <==> Contains(Strip(line), BranchKeyword(line))
    ensures r.Failure? ==> r.error == MissingKeyword
    ensures r.Success? ==> !Contains(r.value, BranchKeyword(line))
  {
    match Piece(Strip(line), BranchKeyword(line), 1)
    case None => Failure(MissingKeyword)
    case Some(c) => Success(c)
  }

  /** The lines a Fork is printed as, `alt <c>` and `else <c>`, give their conditions back. */
  lemma BranchLineRoundTrip(c: string)
    requires |c| > 0 && Unpadded(c) && !Contains(c, "alt ") && !Contains(c, "else ")
    ensures ForkCondition("alt " + c) == Success(c)
    ensures ForkCondition("else " + c) == Success(c)
  {
    AltLineRoundTrip(c);
    ElseLineRoundTrip(c);
  }

  lemma AltLineRoundTrip(c: string)
    requires |c| > 0 && Unpadded(c) && !Contains(c, "alt ")
    ensures ForkCondition("alt " + c) == Success(c)
  {
    KeywordLineUnpadded("alt ", c);
    assert StartsWith("alt " + c, "alt");
    assert BranchKeyword("alt " + c) == "alt ";
    KeywordLineParts("alt ", c);
  }

  lemma ElseLineRoundTrip(c: string)
    requires |c| > 0 && Unpadded(c) && !Contains(c, "else ")
    ensures ForkCondition("else " + c) == Success(c)
  {
    KeywordLineUnpadded("else ", c);
    assert ("else " + c)[0] == 'e';
    assert BranchKeyword("else " + c) == "else ";
    KeywordLineParts("else ", c);
  }

  /** Where condition `k` sits among the branches, if anywhere. */
  function KeyIndex(bs: seq<Branch>, k: string): (r: Option<nat>)
    ensures r.Some? ==> r.value < |bs| && bs[r.value].condition == k
    ensures r.Some? ==> forall j :: 0 <= j < r.value ==> bs[j].condition != k
    ensures r.None? ==> forall j :: 0 <= j < |bs| ==> bs[j].condition != k
    decreases |bs|
  {
    if |bs| == 0 then None
    else if bs[0].condition == k then Some(0)
    else match KeyIndex(bs[1..], k)
      case None => None
      case Some(i) => Some(i + 1)
  }

  /** Python's `branches.get(k)`. */
  function Lookup(bs: seq<Branch>, k: string): (r: Option<Step>)
    ensures r.Some? <==> k in Conditions(bs)
  {
    match KeyIndex(bs, k)
    case None => None
    case Some(i) => Some(bs[i].head)
  }

  /** The branch a condition picks is the one at its first position. */
  lemma LookupAt(bs: seq<Branch>, i: nat)
    requires i < |bs|
    requires forall j :: 0 <= j < i ==> bs[j].condition != bs[i].condition
    ensures Lookup(bs, bs[i].condition) == Some(bs[i].head)
  {
  }

  /**
   Python's `branches[k] = v` on an insertion-ordered dict: the key maps to
   `v` afterwards, every other key keeps its value, an existing key keeps its
   position and a new key goes last.
   */
  function Upsert(bs: seq<Branch>, k: string, v: Step): (r: seq<Branch>)
    ensures Lookup(r, k) == Some(v)
    ensures forall k' :: k' != k ==> Lookup(r, k') == Lookup(bs, k')
    ensures k in Conditions(bs) ==> Conditions(r) == Conditions(bs)
    ensures k !in Conditions(bs) ==> Conditions(r) == Conditions(bs) + [k]
    ensures Distinct(Conditions(bs)) ==> Distinct(Conditions(r))
    ensures forall i :: 0 <= i < |r| ==> r[i].head == v || r[i] in bs
  {
    match KeyIndex(bs, k)
    case Some(i) =>
      var r := bs[i := Branch(k, v)];
      UpsertKeeps(bs, r, k, i);
      assert Conditions(r) == Conditions(bs);
      r
    case None =>
      var r := bs + [Branch(k, v)];
      UpsertKeeps(bs, r, k, |bs|);
      assert Conditions(r) == Conditions(bs) + [k];
      r
  }

  /** Writing key `k` at position `i` (its first one, or a new last one) leaves every other lookup alone. */
  lemma UpsertKeeps(bs: seq<Branch>, r: seq<Branch>, k: string, i: nat)
    requires i <= |bs| && |r| == (if i < |bs| then |bs| else |bs| + 1)
    requires i < |bs| ==> bs[i].condition == k
    requires r[i].condition == k
    requires forall j :: 0 <= j < i ==> bs[j].condition != k
    requires forall j :: 0 <= j < |r| && j != i ==> r[j] == bs[j]
    ensures Lookup(r, k) == Some(r[i].head)
    ensures forall k' :: k' != k ==> Lookup(r, k') == Lookup(bs, k')
  {
    LookupAt(r, i);
    forall k' | k' != k
      ensures Lookup(r, k') == Lookup(bs, k')
    {
      match KeyIndex(bs, k')
      case Some(p) =>
        assert p != i && r[p] == bs[p];
        LookupAt(r, p);
      case None =>
        assert forall j :: 0 <= j < |r| ==> r[j].condition != k' by {
          forall j | 0 <= j < |r|
            ensures r[j].condition != k'
          {
            if j != i {
              assert r[j] == bs[j];
            }
          }
        }
    }
  }

  /** The keys in order of first occurrence, each once: the key order of a Python dict. */
  function FirstOccurrences(keys: seq<string>): (r: seq<string>)
    decreases |keys|
  {
    if |keys| == 0 then []
    else
      var d := FirstOccurrences(keys[..|keys| - 1]);
      if keys[|keys| - 1] in d then d else d + [keys[|keys| - 1]]
  }

  /** The value written last for `k`, if `k` was written at all. */
  function LastWrite(keys: seq<string>, vals: seq<Step>, k: string): (r: Option<Step>)
    requires |keys| == |vals|
    decreases |keys|
  {
    if |keys| == 0 then None
    else if keys[|keys| - 1] == k then Some(vals[|vals| - 1])
    else LastWrite(keys[..|keys| - 1], vals[..|vals| - 1], k)
  }

  /**
   The dict the Fork constructor builds from the conditions and the branch
   chains, zipped in order: its keys are the distinct conditions in order of
   first occurrence, and each maps to the chain written last for it.
   */
  function BranchMap(keys: seq<string>, vals: seq<Step>): (r: seq<Branch>)
    requires |keys| == |vals|
    ensures Conditions(r) == FirstOccurrences(keys)
    ensures Distinct(Conditions(r))
    ensures forall k :: Lookup(r, k) == LastWrite(keys, vals, k)
    decreases |keys|
  {
    if |keys| == 0 then []
    else
      var n := |keys| - 1;
      var prev := BranchMap(keys[..n], vals[..n]);
      Upsert(prev, keys[n], vals[n])
  }

  /** Every chain stored in the dict is one of the chains written. */
  lemma {:induction false} BranchMapHeads(keys: seq<string>, vals: seq<Step>)
    requires |keys| == |vals|
    ensures forall i :: 0 <= i < |BranchMap(keys, vals)| ==> BranchMap(keys, vals)[i].head in vals
    decreases |keys|
  {
    if |keys| > 0 {
      var n := |keys| - 1;
      var prev := BranchMap(keys[..n], vals[..n]);
      BranchMapHeads(keys[..n], vals[..n]);
      forall i | 0 <= i < |prev|
        ensures prev[i].head in vals
      {
        assert prev[i].head in vals[..n];
      }
      UpsertHeads(prev, keys[n], vals[n], vals);
    }
  }

  /** Storing a chain from `vals` keeps every stored chain one of `vals`. */
  lemma UpsertHeads(bs: seq<Branch>, k: string, v: Step, vals: seq<Step>)
    requires v in vals
    requires forall i :: 0 <= i < |bs| ==> bs[i].head in vals
    ensures forall i :: 0 <= i < |Upsert(bs, k, v)| ==> Upsert(bs, k, v)[i].head in vals
  {
    var r := Upsert(bs, k, v);
    forall i | 0 <= i < |r|
      ensures r[i].head in vals
    {
      if r[i].head != v {
        var j :| 0 <= j < |bs| && bs[j] == r[i];
      }
    }
  }

  /** A dict never has more keys than were written, and its first key is the first written. */
  lemma {:induction false} FirstOccurrencesShape(keys: seq<string>)
    ensures |FirstOccurrences(keys)| <= |keys|
    ensures |keys| >= 1 ==> |FirstOccurrences(keys)| >= 1 && FirstOccurrences(keys)[0] == keys[0]
    ensures forall k :: k in FirstOccurrences(keys) <==> k in keys
    decreases |keys|
  {
    if |keys| > 0 {
      var n := |keys| - 1;
      FirstOccurrencesShape(keys[..n]);
      assert keys == keys[..n] + [keys[n]];
      if n > 0 {
        assert keys[..n][0] == keys[0];
      }
    }
  }

  lemma {:induction false} FirstOccurrencesDistinct(keys: seq<string>)
    requires Distinct(keys)
    ensures FirstOccurrences(keys) == keys
    decreases |keys|
  {
    if |keys| > 0 {
      var n := |keys| - 1;
      FirstOccurrencesDistinct(keys[..n]);
      assert keys == keys[..n] + [keys[n]];
    }
  }

  lemma {:induction false} LastWriteDistinct(keys: seq<string>, vals: seq<Step>, i: nat)
    requires |keys| == |vals| && Distinct(keys) && i < |keys|
    ensures LastWrite(keys, vals, keys[i]) == Some(vals[i])
    decreases |keys|
  {
    var n := |keys| - 1;
    if i < n {
      LastWriteDistinct(keys[..n], vals[..n], i);
    }
  }

  /** With pairwise different conditions nothing collapses: one branch per alternative, in order. */
  lemma BranchMapDistinct(keys: seq<string>, vals: seq<Step>)
    requires |keys| == |vals| && Distinct(keys)
    ensures |BranchMap(keys, vals)| == |keys|
    ensures forall i :: 0 <= i < |keys| ==> BranchMap(keys, vals)[i] == Branch(keys[i], vals[i])
  {
    var r := BranchMap(keys, vals);
    FirstOccurrencesDistinct(keys);
    assert Conditions(r) == keys;
    forall i | 0 <= i < |keys|
      ensures r[i] == Branch(keys[i], vals[i])
    {
      assert r[i].condition == keys[i];
      LookupAt(r, i);
      LastWriteDistinct(keys, vals, i);
    }
  }

  /**
   With pairwise different conditions the Fork keeps every alternative, in
   order, each with its own chain.
   */
  lemma BuildBranchesDistinct(conds: seq<Result<string>>, heads: seq<Step>, cs: seq<string>)
    requires |conds| == |heads| == |cs| && Distinct(cs)
    requires forall i :: 0 <= i < |cs| ==> conds[i] == Success(cs[i])
    ensures BuildBranches(conds, heads).Success?
    ensures |BuildBranches(conds, heads).value| == |conds|
    ensures forall i :: 0 <= i < |conds| ==> BuildBranches(conds, heads).value[i] == Branch(cs[i], heads[i])
  {
    assert Collect(conds).value == cs;
    BranchMapDistinct(cs, heads);
  }

  /**
   With repeated conditions the alternatives collapse as dict keys do: one
   branch per distinct condition, at the position of its first line, holding
   the chain of its last line.
   */
  lemma BuildBranchesCollapse(conds: seq<Result<string>>, heads: seq<Step>, cs: seq<string>)
    requires |conds| == |heads| == |cs|
    requires forall i :: 0 <= i < |cs| ==> conds[i] == Success(cs[i])
    ensures BuildBranches(conds, heads).Success?
    ensures Conditions(BuildBranches(conds, heads).value) == FirstOccurrences(cs)
    ensures forall k :: Lookup(BuildBranches(conds, heads).value, k) == LastWrite(cs, heads, k)
  {
    assert Collect(conds).value == cs;
  }

  /**
   Build the Fork's branches from the readings of its condition lines and its
   branch chains. All conditions are read before any branch is stored, which
   gives the same first failure as the source's interleaved loop since
   storing cannot fail.
   */
  function BuildBranches(conds: seq<Result<string>>, heads: seq<Step>): (r: Result<seq<Branch>>)
    requires |conds| == |heads|
    ensures r.Success? <==> forall i :: 0 <= i < |conds| ==> conds[i].Success?
    ensures r.Failure? ==>
      exists i :: 0 <= i < |conds| && conds[i] == Failure(r.error) && forall j :: 0 <= j < i ==> conds[j].Success?
    ensures r.Success? ==> |r.value| <= |conds| && Distinct(Conditions(r.value))
    ensures r.Success? && |conds| >= 1 ==> |r.value| >= 1 && Success(r.value[0].condition) == conds[0]
    ensures r.Success? ==> forall i :: 0 <= i < |r.value| ==> r.value[i].head in heads
  {
    match Collect(conds)
    case Failure(e) => Failure(e)
    case Success(cs) =>
      FirstOccurrencesShape(cs);
      BranchMapHeads(cs, heads);
      Success(BranchMap(cs, heads))
  }
}

=== FILE: Interaction.dfy ===
/**
 Interaction lines `<id1> ->> <id2> : <label>` and `<id1> -->> <id2> : <label>`
 (`src/processing/structure/interaction.py`, constructor and `__repr__`).
 */
module Interactions {
  import opened Wrappers
  import opened Text
  import opened Entities
  import opened Steps

  /**
   The position of the first declared entity with identifier `id` (the source
   takes element 0 of the list of all matches, so a repeated identifier is not
   an error: the earliest declaration wins).
   */
  function FirstMatch(ents: seq<Entity>, id: string): (r: Option<nat>)
    ensures r.Some? ==> r.value < |ents| && ents[r.value].entid == id
    ensures r.Some? ==> forall j :: 0 <= j < r.value ==> ents[j].entid != id
    ensures r.None? ==> forall j :: 0 <= j < |ents| ==> ents[j].entid != id
    decreases |ents|
  {
    if |ents| == 0 then None
    else if ents[0].entid == id then Some(0)
    else match FirstMatch(ents[1..], id)
      case None => None
      case Some(k) => Some(k + 1)
  }

  /** The entity an endpoint identifier resolves to, if any. */
  function Resolve(ents: seq<Entity>, id: string): (r: Option<Entity>)
    ensures r.Some? <==> exists j :: 0 <= j < |ents| && ents[j].entid == id
    ensures r.Some? ==> r.value.entid == id && r.value in ents
    ensures r.Some? ==>
      exists k :: 0 <= k < |ents| && r.value == ents[k] && forall j :: 0 <= j < k ==> ents[j].entid != id
  {
    match FirstMatch(ents, id)
    case None => None
    case Some(k) => Some(ents[k])
  }

  /** The arrow that separates the two endpoints. */
  function Arrow(returning: bool): string {
    if returning then "-->>" else "->>"
  }

  /**
   Parse an interaction line against the declared entities. The line is
   stripped and split at every ` : `; the piece before the first is the
   endpoint segment, the piece after it (up to a second ` : `, if any) is the
   label. The endpoint segment is split at `-->>` when it contains one and at
   `->>` otherwise. Failures come in the source's order: unknown source,
   missing arrow, unknown target, missing label.
   */
  function ParseInteraction(text: string, ents: seq<Entity>): (r: Result<Message>)
    ensures var parts := Split(Strip(text), " : ");
      var returning := Contains(parts[0], "-->>");
      var ends := Split(parts[0], Arrow(returning));
      && (r.Success? <==>
            && Resolve(ents, Strip(ends[0])).Some?
            && |ends| >= 2 && Resolve(ents, Strip(ends[1])).Some?
            && |parts| >= 2)
      && (r.Success? ==>
            && r.value.returning == returning
            && r.value.source == Resolve(ents, Strip(ends[0])).value
            && r.value.target == Resolve(ents, Strip(ends[1])).value
            && r.value.description == Strip(parts[1]))
    ensures r.Success? ==> Unpadded(r.value.description) && !Contains(r.value.description, " : ")
  {
    var parts := Split(Strip(text), " : ");
    var returning := Contains(parts[0], "-->>");
    var ends := Split(parts[0], Arrow(returning));
    match Resolve(ents, Strip(ends[0]))
    case None => Failure(UnknownEntity)
    case Some(source) =>
      if |ends| < 2 then Failure(MissingArrow)
      else match Resolve(ents, Strip(ends[1]))
        case None => Failure(UnknownEntity)
        case Some(target) =>
          if |parts| < 2 then Failure(MissingLabel)
          else
            StripKeepsAbsence(parts[1], " : ");
            Success(Message(source, target, returning, Strip(parts[1])))
  }

  /** Python's `repr(interaction)`: `id1 ->> id2 : label`, with `-->>` for a returning call. */
  function Render(m: Message): string {
    m.source.entid + " " + Arrow(m.returning) + " " + m.target.entid + " : " + m.description
  }

  /** The messages whose rendering is unambiguous and resolves back to the same entities. */
  predicate Renderable(m: Message, ents: seq<Entity>) {
    && IsIdent(m.source.entid) && IsIdent(m.target.entid)
    && |m.description| > 0 && Unpadded(m.description) && !Contains(m.description, " : ")
    && Resolve(ents, m.source.entid) == Some(m.source)
    && Resolve(ents, m.target.entid) == Some(m.target)
  }

  /** No ` : ` starts inside the endpoint segment `id1 <arrow> id2` of a rendered line. */
  lemma NoLabelSeparatorInEndpoints(a: string, arrow: string, b: string, d: string)
    requires IsIdent(a) && IsIdent(b)
    requires arrow == "-->>" || arrow == "->>"
    ensures forall j :: 0 <= j < |a + " " + arrow + " " + b| ==>
      !OccursAt(a + " " + arrow + " " + b + " : " + d, " : ", j)
  {
    var s := a + " " + arrow + " " + b + " : " + d;
    var n := |a| + |arrow| + 2;
    forall j | 0 <= j < |a + " " + arrow + " " + b|
      ensures !OccursAt(s, " : ", j)
    {
      if j < |a| {
        assert s[j] == a[j];
        NotAtForeignChar(s, " : ", j);
      } else if j == |a| {
        assert s[j + 1] == arrow[0];
        assert s[j..j + 3][1] == s[j + 1];
      } else if j < n - 1 {
        assert s[j] == arrow[j - |a| - 1];
        NotAtForeignChar(s, " : ", j);
      } else if j == n - 1 {
        assert s[j + 1] == b[0];
        assert s[j..j + 3][1] == s[j + 1];
      } else {
        assert s[j] == b[j - n];
        NotAtForeignChar(s, " : ", j);
      }
    }
  }

  /** A rendered line has no blank at either end. */
  lemma RenderedUnpadded(m: Message, ents: seq<Entity>)
    requires Renderable(m, ents)
    ensures Strip(Render(m)) == Render(m)
  {
    var r := Render(m);
    assert r[0] == m.source.entid[0];
    assert r[|r| - 1] == m.description[|m.description| - 1];
    StripFixedPoint(r);
  }

  /** A rendered line splits at ` : ` into its endpoint segment and its label. */
  lemma RenderedParts(m: Message, ents: seq<Entity>)
    requires Renderable(m, ents)
    ensures Split(Render(m), " : ") ==
      [m.source.entid + " " + Arrow(m.returning) + " " + m.target.entid, m.description]
  {
    var a, b := m.source.entid, m.target.entid;
    var seg := a + " " + Arrow(m.returning) + " " + b;
    assert Render(m) == seg + " : " + m.description;
    NoLabelSeparatorInEndpoints(a, Arrow(m.returning), b, m.description);
    SplitAfter(seg, " : ", m.description);
    SplitWhole(m.description, " : ");
  }

  /** The endpoint segment holds `-->>` exactly when the arrow is the returning one. */
  lemma ReturnMarker(a: string, returning: bool, b: string)
    requires IsIdent(a) && IsIdent(b)
    ensures Contains(a + " " + Arrow(returning) + " " + b, "-->>") == returning
  {
    var s := a + " " + Arrow(returning) + " " + b;
    if returning {
      assert s[|a| + 1..|a| + 5] == "-->>";
      assert OccursAt(s, "-->>", |a| + 1);
    } else {
      forall j | 0 <= j
        ensures !OccursAt(s, "-->>", j)
      {
        if j < |s| && j != |a| + 1 {
          if j < |a| {
            assert s[j] == a[j];
          } else if j > |a| + 4 {
            assert s[j] == b[j - |a| - 5];
          }
          NotAtForeignChar(s, "-->>", j);
        } else if j == |a| + 1 && j + 4 <= |s| {
          assert s[j..j + 4][1] == s[j + 1] == '>';
        }
      }
    }
  }

  /** The endpoint segment splits at its arrow into the two padded identifiers. */
  lemma EndpointParts(a: string, returning: bool, b: string)
    requires IsIdent(a) && IsIdent(b)
    ensures Split(a + " " + Arrow(returning) + " " + b, Arrow(returning)) == [a + " ", " " + b]
  {
    var arrow := Arrow(returning);
    var s := a + " " + arrow + " " + b;
    assert s == (a + " ") + arrow + (" " + b);
    forall j | 0 <= j < |a + " "|
      ensures !OccursAt(s, arrow, j)
    {
      assert s[j] == (a + " ")[j];
      NotAtForeignChar(s, arrow, j);
    }
    SplitAfter(a + " ", arrow, " " + b);
    NotContainsMissingChar(" " + b, arrow, 0);
    SplitWhole(" " + b, arrow);
  }

  /** An identifier is its own stripped form. */
  lemma IdentUnpadded(a: string)
    requires IsIdent(a)
    ensures Unpadded(a)
  {
    assert IsIdentChar(a[0]) && IsIdentChar(a[|a| - 1]);
  }

  /** Padding an identifier with one blank is undone by `strip`. */
  lemma StripIdentPadding(a: string)
    requires IsIdent(a)
    ensures Strip(a + " ") == a && Strip(" " + a) == a
  {
    IdentUnpadded(a);
    assert AllSpace(" ");
    assert AllSpace([]);
    StripBlanks([], a, " ");
    assert [] + a + " " == a + " ";
    StripBlanks(" ", a, []);
    assert " " + a + [] == " " + a;
  }

  /** The `repr` of a renderable message parses back to the same message. */
  lemma RenderRoundTrip(m: Message, ents: seq<Entity>)
    requires Renderable(m, ents)
    ensures ParseInteraction(Render(m), ents) == Success(m)
  {
    var a, b := m.source.entid, m.target.entid;
    RenderedUnpadded(m, ents);
    RenderedParts(m, ents);
    ReturnMarker(a, m.returning, b);
    EndpointParts(a, m.returning, b);
    StripIdentPadding(a);
    StripIdentPadding(b);
    StripFixedPoint(m.description);
  }
}

=== FILE: Loop.dfy ===
/**
 The condition of a `loop <condition>` line (`src/processing/structure/loop.py`, constructor).
 */
module Loops {
  import opened Wrappers
  import opened Text

  /**
   The stripped text between the first and second `loop ` of the stripped
   line; a line without `loop ` (such as a bare `loop`) has no condition.
   */
  function LoopCondition(text: string): (r: Result<string>)
    ensures r.Success? <==> Contains(Strip(text), "loop ")
    ensures r.Failure? ==> r.error == MissingKeyword
    ensures r.Success? ==> Unpadded(r.value) && !Contains(r.value, "loop ")
  {
    match Piece(Strip(text), "loop ", 1)
    case None => Failure(MissingKeyword)
    case Some(p) =>
      StripKeepsAbsence(p, "loop ");
      Success(Strip(p))
  }

  /** The line a Loop is printed as, `loop <condition>`, gives its condition back. */
  lemma LoopLineRoundTrip(c: string)
    requires |c| > 0 && Unpadded(c) && !Contains(c, "loop ")
    ensures LoopCondition("loop " + c) == Success(c)
  {
    KeywordLineUnpadded("loop ", c);
    KeywordLineParts("loop ", c);
    StripFixedPoint(c);
  }
}

=== FILE: Metrics.dfy ===
/**
 The metrics a step chain answers (`count_interactions`,
 `count_consecutive_interactions` and `get_last_step` of
 `src/processing/structure/interaction.py`, `loop.py` and `fork.py`), each
 as one function over the closed `Step` datatype, with the flattened list of
 messages as the reference they are measured against.
 */
module Metrics {
  import opened Wrappers
  import opened Entities
  import opened Steps

  /** An interaction between exactly one actor and one participant (the user-system level). */
  predicate UserLevel(m: Message) {
    m.source.actor != m.target.actor
  }

  /** What one interaction adds to `count_interactions(only_userlevel)`. */
  function Tally(m: Message, userLevel: bool): nat {
    if !userLevel || UserLevel(m) then 1 else 0
  }

  /**
   `count_interactions`: the interactions of the step, of every loop body and
   every branch, and of the successors; with `userLevel` only the user-system
   level ones. It counts exactly the messages of the chain the filter keeps.
   */
  function CountInteractions(s: Step, userLevel: bool): (r: nat)
    ensures r == Kept(Messages(s), userLevel)
    decreases s
  {
    match s
    case Interaction(m, next) =>
      KeptConcat([m], MessagesNext(next), userLevel);
      Tally(m, userLevel) + CountNext(next, userLevel)
    case Loop(_, body, next) =>
      KeptConcat(Messages(body), MessagesNext(next), userLevel);
      CountNext(next, userLevel) + CountInteractions(body, userLevel)
    case Fork(bs, next) =>
      KeptConcat(MessagesBranches(bs), MessagesNext(next), userLevel);
      CountBranches(bs, userLevel) + CountNext(next, userLevel)
  }

  function CountNext(next: Option<Step>, userLevel: bool): (r: nat)
    ensures r == Kept(MessagesNext(next), userLevel)
    decreases next
  {
    match next
    case None => 0
    case Some(n) => CountInteractions(n, userLevel)
  }

  /** The sum over the branches, in dict order: the kept messages of every branch. */
  function CountBranches(bs: seq<Branch>, userLevel: bool): (r: nat)
    ensures r == Kept(MessagesBranches(bs), userLevel)
    decreases bs
  {
    if |bs| == 0 then 0
    else
      KeptConcat(Messages(bs[0].head), MessagesBranches(bs[1..]), userLevel);
      CountInteractions(bs[0].head, userLevel) + CountBranches(bs[1..], userLevel)
  }

  /** Every message of the chain, loop bodies and all branches included, in source order. */
  function Messages(s: Step): seq<Message>
    decreases s
  {
    match s
    case Interaction(m, next) => [m] + MessagesNext(next)
    case Loop(_, body, next) => Messages(body) + MessagesNext(next)
    case Fork(bs, next) => MessagesBranches(bs) + MessagesNext(next)
  }

  function MessagesNext(next: Option<Step>): seq<Message>
    decreases next
  {
    match next
    case None => []
    case Some(n) => Messages(n)
  }

  function MessagesBranches(bs: seq<Branch>): seq<Message>
    decreases bs
  {
    if |bs| == 0 then [] else Messages(bs[0].head) + MessagesBranches(bs[1..])
  }

  /** The number of messages a filter keeps: all of them, or the user-system level ones. */
  function Kept(ms: seq<Message>, userLevel: bool): (r: nat)
    ensures r <= |ms|
    ensures !userLevel ==> r == |ms|
    decreases |ms|
  {
    if |ms| == 0 then 0 else Tally(ms[0], userLevel) + Kept(ms[1..], userLevel)
  }

  lemma {:induction false} KeptConcat(a: seq<Message>, b: seq<Message>, userLevel: bool)
    ensures Kept(a + b, userLevel) == Kept(a, userLevel) + Kept(b, userLevel)
    decreases |a|
  {
    if |a| == 0 {
      assert a + b == b;
    } else {
      assert (a + b)[0] == a[0];
      assert (a + b)[1..] == a[1..] + b;
      KeptConcat(a[1..], b, userLevel);
    }
  }

  /**
   The messages met when following the chain and entering every loop body
   and only the first branch of every Fork: the path `get_last_step` and the
   consecutive-interaction context follow.
   */
  function MainPath(s: Step): (r: seq<Message>)
    requires WellFormed(s)
    ensures |r| >= 1
    decreases s
  {
    WellFormedParts(s);
    match s
    case Interaction(m, next) => [m] + MainPathNext(next)
    case Loop(_, body, next) => MainPath(body) + MainPathNext(next)
    case Fork(bs, next) => MainPath(bs[0].head) + MainPathNext(next)
  }

  function MainPathNext(next: Option<Step>): seq<Message>
    requires WellFormedNext(next)
    decreases next
  {
    match next
    case None => []
    case Some(n) => MainPath(n)
  }

  /** The last message of a non-empty list. */
  function Final(ms: seq<Message>): Message
    requires |ms| > 0
  {
    ms[|ms| - 1]
  }

  /**
   `get_last_step`: the last interaction of the chain. A Loop or Fork without
   successor ends with the last step of its body or of its first branch, so
   the last step is the end of the main path.
   */
  function LastStep(s: Step): (r: Message)
    requires WellFormed(s)
    ensures r == Final(MainPath(s))
    decreases s
  {
    WellFormedParts(s);
    match s
    case Interaction(m, next) => if next.Some? then LastStep(next.value) else m
    case Loop(_, body, next) => if next.Some? then LastStep(next.value) else LastStep(body)
    case Fork(bs, next) => if next.Some? then LastStep(next.value) else LastStep(bs[0].head)
  }

  /** Whether an interaction continues from the entity `last` the previous one ended at. */
  function Continues(last: Option<Entity>, m: Message): nat {
    if last.Some? && last.value.entid == m.source.entid then 1 else 0
  }

  /**
   `count_consecutive_interactions(last_entity)`: the interactions whose
   source is the entity the preceding interaction went to (compared by
   identifier). Loop bodies and every branch start from the context before
   them; the successor of a Loop or Fork continues from the last step of the
   body or of the first branch.
   */
  function Consecutive(s: Step, last: Option<Entity>): nat
    requires WellFormed(s)
    decreases s
  {
    WellFormedParts(s);
    match s
    case Interaction(m, next) => Continues(last, m) + ConsecutiveNext(next, Some(m.target))
    case Loop(_, body, next) =>
      Consecutive(body, last) + ConsecutiveNext(next, Some(LastStep(body).target))
    case Fork(bs, next) =>
      ConsecutiveBranches(bs, last) + ConsecutiveNext(next, Some(LastStep(bs[0].head).target))
  }

  function ConsecutiveNext(next: Option<Step>, last: Option<Entity>): nat
    requires WellFormedNext(next)
    decreases next
  {
    match next
    case None => 0
    case Some(n) => Consecutive(n, last)
  }

  function ConsecutiveBranches(bs: seq<Branch>, last: Option<Entity>): nat
    requires WellFormedBranches(bs)
    decreases bs
  {
    if |bs| == 0 then 0 else Consecutive(bs[0].head, last) + ConsecutiveBranches(bs[1..], last)
  }

  /** The reference: the messages of a list that start where the message before them ended. */
  function Adjacent(ms: seq<Message>, last: Option<Entity>): nat
    decreases |ms|
  {
    if |ms| == 0 then 0 else Continues(last, ms[0]) + Adjacent(ms[1..], Some(ms[0].target))
  }

  lemma {:induction false} AdjacentConcat(a: seq<Message>, b: seq<Message>, last: Option<Entity>)
    ensures Adjacent(a + b, last) == Adjacent(a, last) + Adjacent(b, if |a| == 0 then last else Some(a[|a| - 1].target))
    decreases |a|
  {
    if |a| == 0 {
      assert a + b == b;
    } else {
      assert (a + b)[0] == a[0];
      assert (a + b)[1..] == a[1..] + b;
      AdjacentConcat(a[1..], b, Some(a[0].target));
      if |a| > 1 {
        assert a[1..][|a| - 2] == a[|a| - 1];
      }
    }
  }

  /** A chain with no Fork anywhere. */
  predicate ForkFree(s: Step)
    decreases s
  {
    match s
    case Interaction(_, next) => ForkFreeNext(next)
    case Loop(_, body, next) => ForkFree(body) && ForkFreeNext(next)
    case Fork(_, _) => false
  }

  predicate ForkFreeNext(next: Option<Step>)
    decreases next
  {
    match next
    case None => true
    case Some(n) => ForkFree(n)
  }

  /**
   Without Forks, the consecutive count is the number of adjacent pairs along
   the chain read top to bottom with loop bodies inlined once.
   */
  lemma {:induction false} ConsecutiveForkFree(s: Step, last: Option<Entity>)
    requires WellFormed(s) && ForkFree(s)
    ensures Consecutive(s, last) == Adjacent(MainPath(s), last)
    decreases s
  {
    match s
    case Interaction(m, next) =>
      ConsecutiveForkFreeNext(next, Some(m.target));
      AdjacentConcat([m], MainPathNext(next), last);
    case Loop(_, body, next) =>
      ConsecutiveForkFree(body, last);
      ConsecutiveForkFreeNext(next, Some(LastStep(body).target));
      AdjacentConcat(MainPath(body), MainPathNext(next), last);
  }

  lemma {:induction false} ConsecutiveForkFreeNext(next: Option<Step>, last: Option<Entity>)
    requires WellFormedNext(next) && ForkFreeNext(next)
    ensures ConsecutiveNext(next, last) == Adjacent(MainPathNext(next), last)
    decreases next
  {
    if next.Some? {
      ConsecutiveForkFree(next.value, last);
    }
  }

  /**
   The consecutive interactions the main path does not see: those of every
   branch of a Fork but the first. Each such branch is read, along its own
   main path and its own side branches, from the context just before its
   Fork; the main path then continues from the end of the first branch.
   */
  function OffPath(s: Step, last: Option<Entity>): nat
    requires WellFormed(s)
    decreases s
  {
    WellFormedParts(s);
    match s
    case Interaction(m, next) => OffPathNext(next, Some(m.target))
    case Loop(_, body, next) =>
      OffPath(body, last) + OffPathNext(next, Some(Final(MainPath(body)).target))
    case Fork(bs, next) =>
      OffPath(bs[0].head, last) + SideBranches(bs[1..], last)
        + OffPathNext(next, Some(Final(MainPath(bs[0].head)).target))
  }

  function OffPathNext(next: Option<Step>, last: Option<Entity>): nat
    requires WellFormedNext(next)
    decreases next
  {
    match next
    case None => 0
    case Some(n) => OffPath(n, last)
  }

  /** The branches off the main path, each read in full from the same context `last`. */
  function SideBranches(bs: seq<Branch>, last: Option<Entity>): nat
    requires WellFormedBranches(bs)
    decreases bs
  {
    if |bs| == 0 then 0
    else Adjacent(MainPath(bs[0].head), last) + OffPath(bs[0].head, last) + SideBranches(bs[1..], last)
  }

  /**
   The consecutive count of any well-formed chain: the adjacent pairs along
   the main path, plus what the branches off it add. The first branch of a
   Fork is the only one whose end the successor continues from.
   */
  lemma {:induction false} ConsecutiveSplit(s: Step, last: Option<Entity>)
    requires WellFormed(s)
    ensures Consecutive(s, last) == Adjacent(MainPath(s), last) + OffPath(s, last)
    decreases s
  {
    WellFormedParts(s);
    match s
    case Interaction(m, next) =>
      ConsecutiveSplitNext(next, Some(m.target));
      AdjacentConcat([m], MainPathNext(next), last);
    case Loop(_, body, next) =>
      ConsecutiveSplit(body, last);
      ConsecutiveSplitNext(next, Some(LastStep(body).target));
      AdjacentConcat(MainPath(body), MainPathNext(next), last);
    case Fork(bs, next) =>
      var b := bs[0].head;
      ConsecutiveSplit(b, last);
      ConsecutiveSplitBranches(bs[1..], last);
      ConsecutiveSplitNext(next, Some(LastStep(b).target));
      AdjacentConcat(MainPath(b), MainPathNext(next), last);
  }

  lemma {:induction false} ConsecutiveSplitNext(next: Option<Step>, last: Option<Entity>)
    requires WellFormedNext(next)
    ensures ConsecutiveNext(next, last) == Adjacent(MainPathNext(next), last) + OffPathNext(next, last)
    decreases next
  {
    if next.Some? {
      ConsecutiveSplit(next.value, last);
    }
  }

  /** Every branch contributes its own consecutive count, read from the same context. */
  lemma {:induction false} ConsecutiveSplitBranches(bs: seq<Branch>, last: Option<Entity>)
    requires WellFormedBranches(bs)
    ensures ConsecutiveBranches(bs, last) == SideBranches(bs, last)
    decreases bs
  {
    if |bs| > 0 {
      ConsecutiveSplit(bs[0].head, last);
      ConsecutiveSplitBranches(bs[1..], last);
    }
  }

  /**
   The branches after the first only add their own counts, each read from
   the context before the Fork: replacing them leaves everything else, the
   successor's count included, as it was with the first branch alone.
   */
  lemma ForkSideBranches(bs: seq<Branch>, next: Option<Step>, last: Option<Entity>)
    requires WellFormed(Fork(bs, next))
    ensures WellFormed(Fork([bs[0]], next)) && WellFormedBranches(bs[1..])
    ensures Consecutive(Fork(bs, next), last)
      == Consecutive(Fork([bs[0]], next), last) + SideBranches(bs[1..], last)
  {
    var one := [bs[0]];
    assert one[1..] == [];
    assert Conditions(one) == [bs[0].condition];
    assert ConsecutiveBranches(one, last) == Consecutive(bs[0].head, last);
    ConsecutiveSplitBranches(bs[1..], last);
  }

  /**
   Each interaction is counted as consecutive at most once, and the first one
   reached without context never is: without a preceding entity the count is
   below the number of interactions.
   */
  lemma {:induction false} ConsecutiveBound(s: Step, last: Option<Entity>)
    requires WellFormed(s)
    ensures Consecutive(s, last) + (if last.None? then 1 else 0) <= CountInteractions(s, false)
    decreases s
  {
    match s
    case Interaction(m, next) =>
      ConsecutiveBoundNext(next, Some(m.target));
    case Loop(_, body, next) =>
      ConsecutiveBound(body, last);
      ConsecutiveBoundNext(next, Some(LastStep(body).target));
    case Fork(bs, next) =>
      ConsecutiveBoundBranches(bs, last);
      ConsecutiveBoundNext(next, Some(LastStep(bs[0].head).target));
  }

  lemma {:induction false} ConsecutiveBoundNext(next: Option<Step>, last: Option<Entity>)
    requires WellFormedNext(next) && last.Some?
    ensures ConsecutiveNext(next, last) <= CountNext(next, false)
    decreases next
  {
    if next.Some? {
      ConsecutiveBound(next.value, last);
    }
  }

  lemma {:induction false} ConsecutiveBoundBranches(bs: seq<Branch>, last: Option<Entity>)
    requires WellFormedBranches(bs) && |bs| >= 1
    ensures ConsecutiveBranches(bs, last) + (if last.None? then 1 else 0) <= CountBranches(bs, false)
    decreases bs
  {
    ConsecutiveBound(bs[0].head, last);
    if |bs| > 1 {
      ConsecutiveBoundBranches(bs[1..], last);
    }
  }

  /** A chain of plain interactions holds exactly its messages, in order, on its main path too. */
  lemma {:induction false} ChainMessages(ms: seq<Message>)
    requires |ms| > 0
    ensures Messages(Chain(ms)) == ms
    ensures MainPath(Chain(ms)) == ms
    ensures ForkFree(Chain(ms))
    decreases |ms|
  {
    if |ms| > 1 {
      ChainMessages(ms[1..]);
    }
  }

  /**
   The metrics of a chain of plain interactions: every message is counted,
   and a message is consecutive when its source is the previous message's
   target.
   */
  lemma ChainMetrics(ms: seq<Message>, last: Option<Entity>)
    requires |ms| > 0
    ensures CountInteractions(Chain(ms), false) == |ms|
    ensures Consecutive(Chain(ms), last) == Adjacent(ms, last)
  {
    ChainMessages(ms);
    ConsecutiveForkFree(Chain(ms), last);
  }
}

=== FILE: Parser.dfy ===
/**
 `parse_sequence_diagram` (`src/processing/util/sequencediagramparser.py`):
 the recursive descent that turns the lines after the entity declarations
 into a step chain. The first (stripped) line decides the step: an `alt` line
 opens a Fork, a `loop` line opens a Loop, anything else is an Interaction;
 the lines after the step, if any, are parsed into its successor.

 Every reading the source makes of a line depends on that line alone, so the
 model reads each line once into a `Token` and runs the descent over tokens.
 A token holds each reading as a `Result`, and the descent consults a reading
 only where the source performs it, so a failure surfaces exactly where the
 source raises.
 */
module Parser {
  import opened Wrappers
  import opened Text
  import opened Entities
  import opened Steps
  import opened Scanner
  import opened Interactions
  import opened Loops
  import opened Forks

  /** What the first line of a block opens. */
  datatype Opener = AltOpener | LoopOpener | NoOpener

  function OpenerOf(line: string): (o: Opener)
    ensures o == AltOpener <==> StartsWith(Strip(line), "alt")
    ensures o == LoopOpener <==> !StartsWith(Strip(line), "alt") && StartsWith(Strip(line), "loop")
  {
    if StartsWith(Strip(line), "alt") then AltOpener
    else if StartsWith(Strip(line), "loop") then LoopOpener
    else NoOpener
  }

  /**
   The readings of one line: how the block scans classify it, which block it
   opens, and the line read as an interaction, as a `loop` line and as a
   branch line.
   */
  datatype Token = Token(
    kind: LineKind,
    opener: Opener,
    message: Result<Message>,
    loopCondition: Result<string>,
    forkCondition: Result<string>)

  function Tokenize(line: string, ents: seq<Entity>): Token {
    Token(Classify(line), OpenerOf(line), ParseInteraction(Strip(line), ents),
      LoopCondition(Strip(line)), ForkCondition(line))
  }

  function Tokens(lines: seq<string>, ents: seq<Entity>): (ts: seq<Token>)
    ensures |ts| == |lines|
    ensures forall i :: 0 <= i < |lines| ==> ts[i] == Tokenize(lines[i], ents)
  {
    MapSeq(lines, line => Tokenize(line, ents))
  }

  /** `f` applied to every element, in order. */
  function MapSeq<A, B>(xs: seq<A>, f: A -> B): (ys: seq<B>)
    ensures |ys| == |xs|
    ensures forall i :: 0 <= i < |xs| ==> ys[i] == f(xs[i])
  {
    seq(|xs|, i requires 0 <= i < |xs| => f(xs[i]))
  }

  /** Mapping commutes with slicing. */
  lemma MapSlice<A, B>(xs: seq<A>, f: A -> B, a: nat, b: nat)
    requires a <= b <= |xs|
    ensures MapSeq(xs, f)[a..b] == MapSeq(xs[a..b], f)
  {
    assert forall i :: 0 <= i < b - a ==> xs[a..b][i] == xs[a + i];
  }

  function KindsOf(ts: seq<Token>): (ks: seq<LineKind>)
    ensures |ks| == |ts|
    ensures forall i :: 0 <= i < |ts| ==> ks[i] == ts[i].kind
  {
    seq(|ts|, i requires 0 <= i < |ts| => ts[i].kind)
  }

  /**
   The positions of a Fork's branch lines within its block: the `alt` line
   (position 0), then every separating `else` and the closing `end`. The
   alternatives are found in the lines after the `alt` line, so each of
   their indices moves up by one.
   */
  function Bounds(alts: seq<nat>): (b: seq<nat>)
    ensures |b| == |alts| + 1 && b[0] == 0
    ensures forall k :: 0 <= k < |alts| ==> b[k + 1] == alts[k] + 1
    ensures Increasing(alts) ==> Increasing(b)
  {
    [0] + seq(|alts|, k requires 0 <= k < |alts| => alts[k] + 1)
  }

  /** The last bound is one past the last alternative. */
  lemma BoundsLast(alts: seq<nat>)
    requires |alts| > 0
    ensures Bounds(alts)[|alts|] == alts[|alts| - 1] + 1
  {
  }

  /**
   The whole block: the first step with the rest of the lines as its
   successor chain. An empty list has no first line (an IndexError in the
   source); it is reached by an empty loop body or branch.
   */
  function Parse(lines: seq<string>, ents: seq<Entity>): (r: Result<Step>)
    ensures |lines| == 0 ==> r == Failure(EmptyBlock)
    ensures r.Success? ==> WellFormed(r.value) && ChainLength(r.value) <= |lines|
  {
    ParseSteps(Tokens(lines, ents))
  }

  /** `Parse` over the lines' tokens. */
  function ParseSteps(ts: seq<Token>): (r: Result<Step>)
    ensures |ts| == 0 ==> r == Failure(EmptyBlock)
    ensures r.Success? ==> WellFormed(r.value) && ChainLength(r.value) <= |ts|
    decreases |ts|, 4
  {
    if |ts| == 0 then Failure(EmptyBlock)
    else
      var h :- ParseHead(ts);
      ContinueSteps(h.0, ts[h.1..])
  }

  /**
   `step` with the chain parsed from the remaining tokens attached as its
   successor, or `step` alone when the block ends right after it and no
   line is left to parse.
   */
  function ContinueSteps(step: Step, rest: seq<Token>): (r: Result<Step>)
    ensures |rest| == 0 ==> r == Success(step)
    ensures |rest| > 0 ==> (r.Success? <==> ParseSteps(rest).Success?)
    ensures |rest| > 0 && r.Success? ==> r.value.next == Some(ParseSteps(rest).value)
    ensures |rest| > 0 && r.Failure? ==> r.error == ParseSteps(rest).error
    ensures r.Success? ==> r.value.(next := step.next) == step
    ensures r.Success? && WellFormed(step) ==> WellFormed(r.value)
    ensures r.Success? && step.next.None? ==> ChainLength(r.value) <= |rest| + 1
    decreases |rest|, 5
  {
    if |rest| == 0 then Success(step)
    else
      var succ :- ParseSteps(rest);
      AttachWellFormed(step, succ);
      Success(Attach(step, Some(succ)))
  }

  /**
   The first step of a non-empty block, without successor, and the index of
   the line after it: one past the closing `end` for a Loop or Fork, 1 for an
   Interaction.
   */
  function ParseHead(ts: seq<Token>): (r: Result<(Step, nat)>)
    requires |ts| > 0
    ensures r.Success? ==> 1 <= r.value.1 <= |ts| && r.value.0.next.None? && WellFormed(r.value.0)
    ensures r.Success? ==> (r.value.0.Fork? <==> ts[0].opener == AltOpener)
    ensures r.Success? ==> (r.value.0.Loop? <==> ts[0].opener == LoopOpener)
    ensures ts[0].opener == NoOpener ==>
      r == (match ts[0].message
            case Success(m) => Success((Interaction(m, None), 1))
            case Failure(e) => Failure(e))
    ensures ts[0].opener != NoOpener && ScanEnd(KindsOf(ts[1..]), 0, 0).Failure? ==>
      r == Failure(UnterminatedBlock)
    decreases |ts|, 3
  {
    match ts[0].opener
    case AltOpener => ParseFork(ts)
    case LoopOpener => ParseLoop(ts)
    case NoOpener =>
      var m :- ts[0].message;
      Success((Interaction(m, None), 1))
  }

  /**
   A Fork opened by the first line: its branch lines are the `alt` line and
   the separating `else` lines, each branch chain is parsed from the lines
   up to the next branch line or the closing `end`, and the conditions are
   read only once every branch has parsed.
   */
  function ParseFork(ts: seq<Token>): (r: Result<(Step, nat)>)
    requires |ts| > 0
    ensures r.Success? ==> r.value.0.Fork? && r.value.0.next.None? && WellFormed(r.value.0)
    ensures r.Success? ==>
      && ScanEnd(KindsOf(ts[1..]), 0, 0).Success?
      && r.value.1 == ScanEnd(KindsOf(ts[1..]), 0, 0).value + 2
      && Success(r.value.0.branches[0].condition) == ts[0].forkCondition
    ensures ScanEnd(KindsOf(ts[1..]), 0, 0).Failure? ==> r == Failure(UnterminatedBlock)
    decreases |ts|, 2
  {
    var alts :- ScanAlternatives(KindsOf(ts[1..]), 0, 0, []);
    var bounds := Bounds(alts);
    var f :- ForkBlock(ts, bounds);
    Success((f, bounds[|bounds| - 1] + 1))
  }

  /**
   The Fork of a block whose branch lines are at `b`: every branch chain is
   parsed first, in order, then the conditions are read and the dict built.
   */
  function ForkBlock(ts: seq<Token>, b: seq<nat>): (r: Result<Step>)
    requires |b| >= 2 && Increasing(b) && b[|b| - 1] < |ts|
    ensures r.Success? ==> r.value.Fork? && r.value.next.None? && WellFormed(r.value)
    ensures r.Success? ==>
      && ParseBranches(ts, b, 0).Success?
      && BuildBranches(BranchConditions(ts, b), ParseBranches(ts, b, 0).value) == Success(r.value.branches)
    decreases |ts|, 1
  {
    var heads :- ParseBranches(ts, b, 0);
    var bs :- BuildBranches(BranchConditions(ts, b), heads);
    ForkWellFormed(bs, heads);
    Success(Fork(bs, None))
  }

  /**
   A Loop opened by the first line: its body is parsed from the lines up to
   the closing `end`, then the condition is read from the first line.
   */
  function ParseLoop(ts: seq<Token>): (r: Result<(Step, nat)>)
    requires |ts| > 0
    ensures r.Success? ==> r.value.0.Loop? && r.value.0.next.None? && WellFormed(r.value.0)
    ensures r.Success? ==>
      && ScanEnd(KindsOf(ts[1..]), 0, 0).Success?
      && r.value.1 == ScanEnd(KindsOf(ts[1..]), 0, 0).value + 2
      && ts[0].loopCondition == Success(r.value.0.condition)
    ensures ScanEnd(KindsOf(ts[1..]), 0, 0).Failure? ==> r == Failure(UnterminatedBlock)
    decreases |ts|, 2
  {
    var e :- ScanEnd(KindsOf(ts[1..]), 0, 0);
    var body :- ParseSteps(ts[1..e + 1]);
    var cond :- ts[0].loopCondition;
    Success((Loop(cond, body, None), e + 2))
  }

  /** The condition readings of the branch lines: the line at every bound but the last. */
  function BranchConditions(ts: seq<Token>, bounds: seq<nat>): (r: seq<Result<string>>)
    requires |bounds| >= 1 && forall k :: 0 <= k < |bounds| ==> bounds[k] < |ts|
    ensures |r| == |bounds| - 1
    ensures forall k :: 0 <= k < |r| ==> r[k] == ts[bounds[k]].forkCondition
  {
    seq(|bounds| - 1, k requires 0 <= k < |bounds| - 1 => ts[bounds[k]].forkCondition)
  }

  /** The tokens of branch `k`: those strictly between bound `k` and bound `k + 1`. */
  function BranchBody(ts: seq<Token>, bounds: seq<nat>, k: nat): (r: seq<Token>)
    requires k + 1 < |bounds| && Increasing(bounds) && bounds[|bounds| - 1] < |ts|
    ensures |r| == bounds[k + 1] - bounds[k] - 1 < |ts|
  {
    ts[bounds[k] + 1..bounds[k + 1]]
  }

  /**
   The chains of a Fork's branches from branch `k` on: branch `k` is made of
   the lines strictly between bound `k` and bound `k + 1`, parsed in order; an
   empty branch fails like any empty block.
   */
  function ParseBranches(ts: seq<Token>, bounds: seq<nat>, k: nat): (r: Result<seq<Step>>)
    requires k < |bounds| && Increasing(bounds) && bounds[|bounds| - 1] < |ts|
    ensures r.Success? ==> |r.value| == |bounds| - 1 - k
    ensures r.Success? ==> forall i :: 0 <= i < |r.value| ==> WellFormed(r.value[i])
    decreases |ts|, 0, |bounds| - k
  {
    if k == |bounds| - 1 then Success([])
    else
      var head :- ParseSteps(BranchBody(ts, bounds, k));
      var rest :- ParseBranches(ts, bounds, k + 1);
      Success([head] + rest)
  }

  /** Attaching a well-formed successor to a well-formed step keeps it well formed. */
  lemma AttachWellFormed(s: Step, n: Step)
    ensures WellFormed(s) && WellFormed(n) ==> WellFormed(Attach(s, Some(n)))
  {
  }

  /** A Fork built from well-formed branch chains is well formed. */
  lemma ForkWellFormed(bs: seq<Branch>, heads: seq<Step>)
    requires |bs| >= 1 && Distinct(Conditions(bs))
    requires forall i :: 0 <= i < |bs| ==> bs[i].head in heads
    requires forall k :: 0 <= k < |heads| ==> WellFormed(heads[k])
    ensures WellFormed(Fork(bs, None))
  {
    WellFormedBranchesAll(bs);
  }

  /**
   A block opened by an `alt` line fails without a matching `end`; with
   one, the branch chains are parsed in order, then the conditions are read
   from the branch lines, and parsing resumes after the `end`.
   */
  lemma {:induction false} ForkSteps(ts: seq<Token>)
    requires |ts| > 0 && ts[0].opener == AltOpener
    ensures var alts := ScanAlternatives(KindsOf(ts[1..]), 0, 0, []);
      && (alts.Failure? ==> ParseSteps(ts) == Failure(UnterminatedBlock))
      && (alts.Success? ==> ParseSteps(ts) == ForkTail(ts, Bounds(alts.value)))
  {
    var alts := ScanAlternatives(KindsOf(ts[1..]), 0, 0, []);
    if alts.Success? {
      BoundsShape(KindsOf(ts[1..]), Bounds(alts.value));
      ForkStepsScanned(ts, Bounds(alts.value));
    } else {
      StepsOfHead(ts, Failure(UnterminatedBlock));
    }
  }

  /** `ForkSteps` once the alternatives scan has produced the bounds `b`. */
  lemma {:induction false} ForkStepsScanned(ts: seq<Token>, b: seq<nat>)
    requires |ts| > 0 && ts[0].opener == AltOpener
    requires ScanAlternatives(KindsOf(ts[1..]), 0, 0, []).Success?
    requires b == Bounds(ScanAlternatives(KindsOf(ts[1..]), 0, 0, []).value)
    requires |b| >= 2 && Increasing(b) && b[|b| - 1] < |ts|
    ensures ParseSteps(ts) == ForkTail(ts, b)
  {
    var f := ForkBlock(ts, b);
    if f.Success? {
      var rest := ts[b[|b| - 1] + 1..];
      assert ParseSteps(ts) == ContinueSteps(f.value, rest) by { ForkStepsBuilt(ts, b, f); }
      assert ForkTail(ts, b) == ContinueSteps(f.value, rest) by { TailOfBlock(ts, b, f); }
    } else {
      assert ParseSteps(ts) == Failure(f.error) by { ForkStepsFail(ts, b, f); }
      assert ForkTail(ts, b) == Failure(f.error) by { TailOfBlock(ts, b, f); }
    }
  }

  /** The parse of a block whose fork block `f` is built continues `f` after the closing `end`. */
  lemma {:induction false} ForkStepsBuilt(ts: seq<Token>, b: seq<nat>, f: Result<Step>)
    requires |ts| > 0 && ts[0].opener == AltOpener
    requires ScanAlternatives(KindsOf(ts[1..]), 0, 0, []).Success?
    requires b == Bounds(ScanAlternatives(KindsOf(ts[1..]), 0, 0, []).value)
    requires |b| >= 2 && Increasing(b) && b[|b| - 1] < |ts|
    requires f == ForkBlock(ts, b) && f.Success?
    ensures ParseSteps(ts) == ContinueSteps(f.value, ts[b[|b| - 1] + 1..])
  {
    ForkHeadBuilt(ts, b, f);
    StepsOfHead(ts, Success((f.value, b[|b| - 1] + 1)));
  }

  /** The parse of a block whose fork block `f` fails, fails the same way. */
  lemma {:induction false} ForkStepsFail(ts: seq<Token>, b: seq<nat>, f: Result<Step>)
    requires |ts| > 0 && ts[0].opener == AltOpener
    requires ScanAlternatives(KindsOf(ts[1..]), 0, 0, []).Success?
    requires b == Bounds(ScanAlternatives(KindsOf(ts[1..]), 0, 0, []).value)
    requires |b| >= 2 && Increasing(b) && b[|b| - 1] < |ts|
    requires f == ForkBlock(ts, b) && f.Failure?
    ensures ParseSteps(ts) == Failure(f.error)
  {
    ForkHeadFails(ts, b, f);
    StepsOfHead(ts, Failure(f.error));
  }

  /** `ForkTail` continues the fork block `f` after the last bound, or fails with it. */
  lemma {:induction false} TailOfBlock(ts: seq<Token>, b: seq<nat>, f: Result<Step>)
    requires |b| >= 2 && Increasing(b) && b[|b| - 1] < |ts|
    requires f == ForkBlock(ts, b)
    ensures f.Success? ==> ForkTail(ts, b) == ContinueSteps(f.value, ts[b[|b| - 1] + 1..])
    ensures f.Failure? ==> ForkTail(ts, b) == Failure(f.error)
  {
  }

  /** A fork block built at the scanned bounds is the head of the block, ending one past the last bound. */
  lemma {:induction false} ForkHeadBuilt(ts: seq<Token>, b: seq<nat>, f: Result<Step>)
    requires |ts| > 0 && ts[0].opener == AltOpener
    requires ScanAlternatives(KindsOf(ts[1..]), 0, 0, []).Success?
    requires b == Bounds(ScanAlternatives(KindsOf(ts[1..]), 0, 0, []).value)
    requires |b| >= 2 && Increasing(b) && b[|b| - 1] < |ts|
    requires f == ForkBlock(ts, b) && f.Success?
    ensures ParseHead(ts) == Success((f.value, b[|b| - 1] + 1))
  {
    HeadIsFork(ts);
    ForkBuilt(ts, b, f);
    BoundsEnd(KindsOf(ts[1..]), b);
    assert ParseFork(ts).value == (f.value, b[|b| - 1] + 1);
  }

  /** A fork block that fails at the scanned bounds makes the head fail the same way. */
  lemma {:induction false} ForkHeadFails(ts: seq<Token>, b: seq<nat>, f: Result<Step>)
    requires |ts| > 0 && ts[0].opener == AltOpener
    requires ScanAlternatives(KindsOf(ts[1..]), 0, 0, []).Success?
    requires b == Bounds(ScanAlternatives(KindsOf(ts[1..]), 0, 0, []).value)
    requires |b| >= 2 && Increasing(b) && b[|b| - 1] < |ts|
    requires f == ForkBlock(ts, b) && f.Failure?
    ensures ParseHead(ts) == Failure(f.error)
  {
    HeadIsFork(ts);
    ForkFails(ts, b, f);
  }

  /** The head of a block opened by `alt` is its fork. */
  lemma {:induction false} HeadIsFork(ts: seq<Token>)
    requires |ts| > 0 && ts[0].opener == AltOpener
    ensures ParseHead(ts) == ParseFork(ts)
  {
  }

  /** The fork parse succeeds with the block built at the scanned bounds. */
  lemma {:induction false} ForkBuilt(ts: seq<Token>, b: seq<nat>, f: Result<Step>)
    requires |ts| > 0 && ScanAlternatives(KindsOf(ts[1..]), 0, 0, []).Success?
    requires b == Bounds(ScanAlternatives(KindsOf(ts[1..]), 0, 0, []).value)
    requires |b| >= 2 && Increasing(b) && b[|b| - 1] < |ts|
    requires f == ForkBlock(ts, b) && f.Success?
    ensures ParseFork(ts).Success? && ParseFork(ts).value.0 == f.value
  {
  }

  /** The fork parse fails with the block's failure at the scanned bounds. */
  lemma {:induction false} ForkFails(ts: seq<Token>, b: seq<nat>, f: Result<Step>)
    requires |ts| > 0 && ScanAlternatives(KindsOf(ts[1..]), 0, 0, []).Success?
    requires b == Bounds(ScanAlternatives(KindsOf(ts[1..]), 0, 0, []).value)
    requires |b| >= 2 && Increasing(b) && b[|b| - 1] < |ts|
    requires f == ForkBlock(ts, b) && f.Failure?
    ensures ParseFork(ts) == Failure(f.error)
  {
  }

  /** The bounds of a successful alternatives scan over `ks` increase and stay within `ks` and the opening line. */
  lemma BoundsShape(ks: seq<LineKind>, b: seq<nat>)
    requires ScanAlternatives(ks, 0, 0, []).Success?
    requires b == Bounds(ScanAlternatives(ks, 0, 0, []).value)
    ensures |b| >= 2 && Increasing(b) && b[|b| - 1] < |ks| + 1
  {
    BoundsEnd(ks, b);
  }

  /** The last of the bounds `b` of a successful alternatives scan is one past the closing `end` the end scan finds. */
  lemma BoundsEnd(ks: seq<LineKind>, b: seq<nat>)
    requires ScanAlternatives(ks, 0, 0, []).Success?
    requires b == Bounds(ScanAlternatives(ks, 0, 0, []).value)
    ensures ScanEnd(ks, 0, 0).Success? && b[|b| - 1] == ScanEnd(ks, 0, 0).value + 1
  {
    BoundsLast(ScanAlternatives(ks, 0, 0, []).value);
  }

  /** A block's parse is its first step continued with the lines after it, or the first step's failure. */
  lemma {:induction false} StepsFromHead(ts: seq<Token>)
    requires |ts| > 0
    ensures ParseHead(ts).Failure? ==> ParseSteps(ts) == Failure(ParseHead(ts).error)
    ensures ParseHead(ts).Success? ==> ParseSteps(ts) == ContinueSteps(ParseHead(ts).value.0, ts[ParseHead(ts).value.1..])
  {
  }

  /** `StepsFromHead` for a head result already known. */
  lemma {:induction false} StepsOfHead(ts: seq<Token>, h: Result<(Step, nat)>)
    requires |ts| > 0 && ParseHead(ts) == h
    ensures h.Failure? ==> ParseSteps(ts) == Failure(h.error)
    ensures h.Success? ==> ParseSteps(ts) == ContinueSteps(h.value.0, ts[h.value.1..])
  {
    StepsFromHead(ts);
  }

  /** The rest of a Fork's parse once its bounds are known: branches, then conditions, then what follows. */
  function ForkTail(ts: seq<Token>, b: seq<nat>): Result<Step>
    requires |b| >= 2 && Increasing(b) && b[|b| - 1] < |ts|
  {
    var f :- ForkBlock(ts, b);
    ContinueSteps(f, ts[b[|b| - 1] + 1..])
  }

  /**
   When the branch lines carry pairwise different conditions, a parsed Fork
   has one branch per alternative, in order: branch `i` holds the condition
   of branch line `i` and the chain parsed from the tokens after it.
   */
  lemma {:induction false} ForkBranches(ts: seq<Token>, b: seq<nat>, cs: seq<string>)
    requires |b| >= 2 && Increasing(b) && b[|b| - 1] < |ts|
    requires BranchLines(ts, b, cs)
    ensures ForkTail(ts, b).Success? ==> ForkBranchesAre(ts, b, cs, ForkTail(ts, b).value)
  {
    if ForkTail(ts, b).Success? {
      ForkTailParts(ts, b);
      ParseBranchesCollect(ts, b, 0);
      assert BranchChains(ts, b)[0..] == BranchChains(ts, b);
      ForkFromParts(BranchChains(ts, b), ParseBranches(ts, b, 0).value, BranchConditions(ts, b), cs,
        ForkTail(ts, b).value.branches);
    }
  }

  /** Distinct conditions read in order, with the chains collected in order, give one branch per pair. */
  lemma {:induction false} ForkFromParts(chains: seq<Result<Step>>, heads: seq<Step>, conds: seq<Result<string>>, cs: seq<string>, bs: seq<Branch>)
    requires Collect(chains) == Success(heads)
    requires |conds| == |cs| == |chains| && Distinct(cs)
    requires forall i :: 0 <= i < |cs| ==> conds[i] == Success(cs[i])
    requires BuildBranches(conds, heads) == Success(bs)
    ensures |bs| == |cs|
    ensures forall i :: 0 <= i < |cs| ==> bs[i].condition == cs[i] && chains[i] == Success(bs[i].head)
  {
    BuildBranchesDistinct(conds, heads, cs);
  }

  /**
   The parts of a parsed `alt` block: a Fork whose successor is the parse of
   the lines after the `end`, if any. When the branch lines carry the
   pairwise different conditions `cs`, it has one branch per alternative, in
   order, branch `i` holding condition `i` and the parse of the lines after
   branch line `i` up to the next branch line.
   */
  lemma {:induction false} ForkParts(ts: seq<Token>, cs: seq<string>)
    requires |ts| > 0 && ts[0].opener == AltOpener
    ensures ParseSteps(ts).Success? ==> ScanAlternatives(KindsOf(ts[1..]), 0, 0, []).Success?
    ensures var alts := ScanAlternatives(KindsOf(ts[1..]), 0, 0, []);
      alts.Success? && ParseSteps(ts).Success? ==> ForkNext(ts, Bounds(alts.value), ParseSteps(ts).value)
    ensures var alts := ScanAlternatives(KindsOf(ts[1..]), 0, 0, []);
      alts.Success? && ParseSteps(ts).Success? && BranchLines(ts, Bounds(alts.value), cs) ==>
      ForkBranchesAre(ts, Bounds(alts.value), cs, ParseSteps(ts).value)
  {
    var alts := ScanAlternatives(KindsOf(ts[1..]), 0, 0, []);
    if alts.Success? {
      var b := Bounds(alts.value);
      assert ParseSteps(ts) == ForkTail(ts, b) by { ForkSteps(ts); }
      ForkTailIs(ts, b, cs);
    } else {
      assert ParseSteps(ts).Failure? by { ForkSteps(ts); }
    }
  }

  /** What `ForkParts` states, for the parse of a Fork at the bounds `b`. */
  lemma {:induction false} ForkTailIs(ts: seq<Token>, b: seq<nat>, cs: seq<string>)
    requires |b| >= 2 && Increasing(b) && b[|b| - 1] < |ts|
    ensures ForkTail(ts, b).Success? ==> ForkNext(ts, b, ForkTail(ts, b).value)
    ensures ForkTail(ts, b).Success? && BranchLines(ts, b, cs) ==> ForkBranchesAre(ts, b, cs, ForkTail(ts, b).value)
  {
    ForkTailNext(ts, b);
    if BranchLines(ts, b, cs) {
      ForkBranches(ts, b, cs);
    }
  }

  /** The Fork `f` parsed at the bounds `b` continues with the parse of the lines after the `end`, if any. */
  predicate ForkNext(ts: seq<Token>, b: seq<nat>, f: Step) {
    && |b| >= 2 && b[|b| - 1] < |ts|
    && f.Fork?
    && (b[|b| - 1] + 1 < |ts| ==> ParseSteps(ts[b[|b| - 1] + 1..]).Success? && f.next == Some(ParseSteps(ts[b[|b| - 1] + 1..]).value))
    && (b[|b| - 1] + 1 == |ts| ==> f.next.None?)
  }

  /** The branch lines at the bounds `b` carry the pairwise different conditions `cs`. */
  predicate BranchLines(ts: seq<Token>, b: seq<nat>, cs: seq<string>) {
    && |b| >= 1 && b[|b| - 1] < |ts| && Increasing(b)
    && |cs| == |b| - 1 && Distinct(cs) && forall i :: 0 <= i < |cs| ==> ts[b[i]].forkCondition == Success(cs[i])
  }

  /** The Fork `f` has one branch per condition of `cs`, holding the parse of that branch's lines. */
  predicate ForkBranchesAre(ts: seq<Token>, b: seq<nat>, cs: seq<string>, f: Step) {
    && |b| >= 2 && Increasing(b) && b[|b| - 1] < |ts| && |cs| == |b| - 1
    && f.Fork? && |f.branches| == |cs|
    && forall i :: 0 <= i < |cs| ==>
         f.branches[i].condition == cs[i] && ParseSteps(BranchBody(ts, b, i)) == Success(f.branches[i].head)
  }

  lemma {:induction false} ForkTailNext(ts: seq<Token>, b: seq<nat>)
    requires |b| >= 2 && Increasing(b) && b[|b| - 1] < |ts|
    ensures ForkTail(ts, b).Success? ==> ForkNext(ts, b, ForkTail(ts, b).value)
  {
    if ForkTail(ts, b).Success? {
      var f := ForkBlock(ts, b).value;
      ContinueFork(f.branches, ts[b[|b| - 1] + 1..]);
    }
  }

  /** A Fork with a successor attached is still that Fork, followed by the parse of the rest. */
  lemma {:induction false} ContinueFork(bs: seq<Branch>, rest: seq<Token>)
    ensures ContinueSteps(Fork(bs, None), rest).Success? ==>
      var f := ContinueSteps(Fork(bs, None), rest).value;
      && f.Fork? && f.branches == bs
      && (|rest| > 0 ==> ParseSteps(rest).Success? && f.next == Some(ParseSteps(rest).value))
      && (|rest| == 0 ==> f.next.None?)
  {
  }

  /** The parse of every branch of a Fork, each on its own. */
  function BranchChains(ts: seq<Token>, b: seq<nat>): (r: seq<Result<Step>>)
    requires |b| >= 1 && Increasing(b) && b[|b| - 1] < |ts|
    ensures |r| == |b| - 1
  {
    seq(|b| - 1, i requires 0 <= i < |b| - 1 => ParseSteps(BranchBody(ts, b, i)))
  }

  /**
   Parsing the branches in order, stopping at the first failure, is
   collecting the parses of the branches taken one by one.
   */
  lemma {:induction false} ParseBranchesCollect(ts: seq<Token>, b: seq<nat>, k: nat)
    requires k < |b| && Increasing(b) && b[|b| - 1] < |ts|
    ensures ParseBranches(ts, b, k) == Collect(BranchChains(ts, b)[k..])
    decreases |b| - k
  {
    var c := BranchChains(ts, b);
    if k < |b| - 1 {
      ParseBranchesCollect(ts, b, k + 1);
      assert c[k..][0] == c[k] == ParseSteps(BranchBody(ts, b, k));
      assert c[k..][1..] == c[k + 1..];
    } else {
      assert c[k..] == [];
    }
  }

  /** A Fork that parses got its branches from the branch chains and the condition readings. */
  lemma {:induction false} ForkTailParts(ts: seq<Token>, b: seq<nat>)
    requires |b| >= 2 && Increasing(b) && b[|b| - 1] < |ts|
    ensures ForkTail(ts, b).Success? ==>
      && ParseBranches(ts, b, 0).Success?
      && BuildBranches(BranchConditions(ts, b), ParseBranches(ts, b, 0).value).Success?
      && ForkTail(ts, b).value.Fork?
      && ForkTail(ts, b).value.branches == BuildBranches(BranchConditions(ts, b), ParseBranches(ts, b, 0).value).value
  {
  }

  /** The tokens of a slice are the slice of the tokens. */
  lemma {:induction false} TokensSlice(lines: seq<string>, ents: seq<Entity>, a: nat, b: nat)
    requires a <= b <= |lines|
    ensures Tokens(lines, ents)[a..b] == Tokens(lines[a..b], ents)
  {
    MapSlice(lines, line => Tokenize(line, ents), a, b);
  }

  /** The tokens carry the scans' classification of the lines. */
  lemma {:induction false} KindsOfTokens(lines: seq<string>, ents: seq<Entity>)
    ensures KindsOf(Tokens(lines, ents)) == Kinds(lines)
  {
  }

  /** A `loop` line whose block has no closing `end` makes the whole parse fail. */
  lemma {:induction false} UnterminatedLoop(lines: seq<string>, ents: seq<Entity>)
    requires |lines| > 0 && OpenerOf(lines[0]) == LoopOpener && FindEndOfLoop(lines[1..]).Failure?
    ensures Parse(lines, ents) == Failure(UnterminatedBlock)
  {
    var ts := Tokens(lines, ents);
    FirstToken(lines, ents);
    AfterFirstToken(lines, ents);
    assert ParseHead(ts) == Failure(UnterminatedBlock);
  }

  /** The first token reads the first line. */
  lemma {:induction false} FirstToken(lines: seq<string>, ents: seq<Entity>)
    requires |lines| > 0
    ensures Tokens(lines, ents)[0].opener == OpenerOf(lines[0])
  {
  }

  /**
   The parts of a parsed loop block: the body is the parse of the tokens up
   to the closing `end`, the condition is the opener's reading, and the
   tokens after the `end`, if any, give the successor chain.
   */
  lemma {:induction false} LoopParts(ts: seq<Token>)
    requires |ts| > 0 && ts[0].opener == LoopOpener
    ensures ParseSteps(ts).Success? ==>
      && ScanEnd(KindsOf(ts[1..]), 0, 0).Success?
      && var s := ParseSteps(ts).value;
         var e := ScanEnd(KindsOf(ts[1..]), 0, 0).value;
         && s.Loop?
         && ParseSteps(ts[1..e + 1]) == Success(s.body)
         && ts[0].loopCondition == Success(s.condition)
         && (e + 2 < |ts| ==> ParseSteps(ts[e + 2..]).Success? && s.next == Some(ParseSteps(ts[e + 2..]).value))
         && (e + 2 == |ts| ==> s.next.None?)
  {
    var scan := ScanEnd(KindsOf(ts[1..]), 0, 0);
    if scan.Success? {
      LoopPartsScanned(ts);
    } else {
      StepsOfHead(ts, Failure(UnterminatedBlock));
    }
  }

  /** `LoopParts` once the scan has found the matching `end`. */
  lemma {:induction false} LoopPartsScanned(ts: seq<Token>)
    requires |ts| > 0 && ts[0].opener == LoopOpener
    requires ScanEnd(KindsOf(ts[1..]), 0, 0).Success?
    ensures ParseSteps(ts).Success? ==>
      && ScanEnd(KindsOf(ts[1..]), 0, 0).Success?
      && var s := ParseSteps(ts).value;
         var e := ScanEnd(KindsOf(ts[1..]), 0, 0).value;
         && s.Loop?
         && ParseSteps(ts[1..e + 1]) == Success(s.body)
         && ts[0].loopCondition == Success(s.condition)
         && (e + 2 < |ts| ==> ParseSteps(ts[e + 2..]).Success? && s.next == Some(ParseSteps(ts[e + 2..]).value))
         && (e + 2 == |ts| ==> s.next.None?)
  {
    var e := ScanEnd(KindsOf(ts[1..]), 0, 0).value;
    assert ParseHead(ts) == ParseLoop(ts);
    var body := ParseSteps(ts[1..e + 1]);
    if body.Success? && ts[0].loopCondition.Success? {
      StepsOfHead(ts, Success((Loop(ts[0].loopCondition.value, body.value, None), e + 2)));
    } else if body.Failure? {
      StepsOfHead(ts, Failure(body.error));
    } else {
      StepsOfHead(ts, Failure(ts[0].loopCondition.error));
    }
  }

  /** What the scans read after the first line is the classification of the remaining lines. */
  lemma {:induction false} AfterFirstToken(lines: seq<string>, ents: seq<Entity>)
    requires |lines| > 0
    ensures KindsOf(Tokens(lines, ents)[1..]) == Kinds(lines[1..])
  {
    var rest := lines[1..];
    TokensSlice(lines, ents, 1, |lines|);
    assert lines[1..|lines|] == rest;
    KindsOfTokens(rest, ents);
  }

  /**
   A list of tokens none of which opens a block, each a valid interaction,
   parses into the chain of those interactions, one step per token.
   */
  lemma {:induction false} FlatSteps(ts: seq<Token>, ms: seq<Message>)
    requires |ts| > 0 && |ms| == |ts|
    requires forall i :: 0 <= i < |ts| ==> ts[i].opener == NoOpener && ts[i].message == Success(ms[i])
    ensures ParseSteps(ts) == Success(Chain(ms))
    decreases |ts|
  {
    assert ParseHead(ts) == Success((Interaction(ms[0], None), 1));
    if |ts| > 1 {
      FlatSteps(ts[1..], ms[1..]);
    }
  }

  /**
   A list of lines none of which opens a block, each a valid interaction,
   parses into the chain of those interactions, one step per line.
   */
  lemma {:induction false} FlatChain(lines: seq<string>, ents: seq<Entity>, ms: seq<Message>)
    requires |lines| > 0 && |ms| == |lines|
    requires forall i :: 0 <= i < |lines| ==>
      OpenerOf(lines[i]) == NoOpener && ParseInteraction(Strip(lines[i]), ents) == Success(ms[i])
    ensures Parse(lines, ents) == Success(Chain(ms))
  {
    var ts := Tokens(lines, ents);
    forall i | 0 <= i < |ts|
      ensures ts[i].opener == NoOpener && ts[i].message == Success(ms[i])
    {
      assert ts[i] == Tokenize(lines[i], ents);
    }
    FlatSteps(ts, ms);
    assert Parse(lines, ents) == ParseSteps(ts);
  }

  /** The `repr` lines of a list of messages, one per message. */
  function RenderLines(ms: seq<Message>): (r: seq<string>)
    ensures |r| == |ms|
    ensures forall i :: 0 <= i < |ms| ==> r[i] == Interactions.Render(ms[i])
  {
    seq(|ms|, i requires 0 <= i < |ms| => Interactions.Render(ms[i]))
  }

  /**
   Printing a chain of interactions one `repr` per line and parsing the lines
   back gives the chain again, provided every message renders unambiguously
   and no rendered line begins like a block opener (an identifier such as
   `alternative` or `looper` would, since keywords match by prefix).
   */
  lemma {:induction false} RenderedChain(ms: seq<Message>, ents: seq<Entity>)
    requires |ms| > 0
    requires forall i :: 0 <= i < |ms| ==> Renderable(ms[i], ents) && OpenerOf(Interactions.Render(ms[i])) == NoOpener
    ensures Parse(RenderLines(ms), ents) == Success(Chain(ms))
  {
    var lines := RenderLines(ms);
    forall i | 0 <= i < |ms|
      ensures OpenerOf(lines[i]) == NoOpener && ParseInteraction(Strip(lines[i]), ents) == Success(ms[i])
    {
      RenderedUnpadded(ms[i], ents);
      RenderRoundTrip(ms[i], ents);
    }
    FlatChain(lines, ents, ms);
  }
}

=== FILE: Scanner.dfy ===
/**
 The two block-boundary scans of `src/processing/util/sequencediagramparser.py`
 (`find_end_of_loop` and `find_alternatives`). Both walk the lines after a
 block opener with a nesting counter: a line starting with `alt` or `loop`
 opens a nested block, a line starting with `end` closes one, and an `end`
 met while no nested block is open closes the block being scanned. Keywords
 match by prefix only, so `endpoint ->> x : y` counts as an `end`.
 */
module Scanner {
  import opened Wrappers
  import opened Text

  /** How the scans read a line: the `if`/`elif` chain they test it with, in that order. */
  datatype LineKind = EndLine | OpenLine | ElseLine | PlainLine

  function Classify(line: string): (k: LineKind)
    ensures k == EndLine <==> StartsWith(Strip(line), "end")
    ensures k == OpenLine <==>
      !StartsWith(Strip(line), "end") && (StartsWith(Strip(line), "alt") || StartsWith(Strip(line), "loop"))
    ensures k == ElseLine <==>
      && !StartsWith(Strip(line), "end") && !StartsWith(Strip(line), "alt") && !StartsWith(Strip(line), "loop")
      && StartsWith(Strip(line), "else")
  {
    var t := Strip(line);
    if StartsWith(t, "end") then EndLine
    else if StartsWith(t, "alt") || StartsWith(t, "loop") then OpenLine
    else if StartsWith(t, "else") then ElseLine
    else PlainLine
  }

  function Kinds(lines: seq<string>): (ks: seq<LineKind>)
    ensures |ks| == |lines|
    ensures forall i :: 0 <= i < |lines| ==> ks[i] == Classify(lines[i])
  {
    seq(|lines|, i requires 0 <= i < |lines| => Classify(lines[i]))
  }

  /** The nesting depth after one more line, given the depth before it. */
  function NextDepth(depth: nat, k: LineKind): nat {
    match k
    case EndLine => if depth == 0 then 0 else depth - 1
    case OpenLine => depth + 1
    case _ => depth
  }

  /** The number of nested blocks still open after the given lines. */
  function Depth(ks: seq<LineKind>): nat
    decreases |ks|
  {
    if |ks| == 0 then 0 else NextDepth(Depth(ks[..|ks| - 1]), ks[|ks| - 1])
  }

  /** Line `i` is an `end` met with no nested block open: it closes the scanned block. */
  predicate ClosesAt(ks: seq<LineKind>, i: int) {
    0 <= i < |ks| && ks[i] == EndLine && Depth(ks[..i]) == 0
  }

  /** Line `i` is an `else` met with no nested block open: it starts another alternative. */
  predicate SeparatesAt(ks: seq<LineKind>, i: int) {
    0 <= i < |ks| && ks[i] == ElseLine && Depth(ks[..i]) == 0
  }

  predicate Increasing(xs: seq<nat>) {
    forall a, b :: 0 <= a < b < |xs| ==> xs[a] < xs[b]
  }

  /** Moving a scan past a line that does not close the block. */
  lemma ScanStep(ks: seq<LineKind>, i: nat, depth: nat)
    requires i < |ks| && depth == Depth(ks[..i])
    requires forall j :: 0 <= j < i ==> !ClosesAt(ks, j)
    requires !(ks[i] == EndLine && depth == 0)
    ensures NextDepth(depth, ks[i]) == Depth(ks[..i + 1])
    ensures forall j :: 0 <= j < i + 1 ==> !ClosesAt(ks, j)
  {
    assert ks[..i + 1][..i] == ks[..i];
  }

  /** The loop of `find_end_of_loop` from line `i`, with `depth` blocks open. */
  function ScanEnd(ks: seq<LineKind>, i: nat, depth: nat): (r: Result<nat>)
    requires i <= |ks|
    ensures r.Success? ==> i <= r.value < |ks| && ks[r.value] == EndLine
    ensures r.Failure? ==> r.error == UnterminatedBlock
    decreases |ks| - i
  {
    if i == |ks| then Failure(UnterminatedBlock)
    else if ks[i] == EndLine && depth == 0 then Success(i)
    else ScanEnd(ks, i + 1, NextDepth(depth, ks[i]))
  }

  /**
   Started at a line with the depth of the lines before it and no closing
   line passed, the scan stops at the first closing line, and fails exactly
   when there is none.
   */
  lemma {:induction false} ScanEndFindsFirstClose(ks: seq<LineKind>, i: nat, depth: nat)
    requires i <= |ks| && depth == Depth(ks[..i])
    requires forall j :: 0 <= j < i ==> !ClosesAt(ks, j)
    ensures var r := ScanEnd(ks, i, depth);
      && (r.Success? ==> ClosesAt(ks, r.value) && forall j :: 0 <= j < r.value ==> !ClosesAt(ks, j))
      && (r.Failure? <==> forall j :: 0 <= j < |ks| ==> !ClosesAt(ks, j))
    decreases |ks| - i
  {
    if i < |ks| {
      if ks[i] == EndLine && depth == 0 {
        assert ClosesAt(ks, i);
      } else {
        ScanStep(ks, i, depth);
        ScanEndFindsFirstClose(ks, i + 1, NextDepth(depth, ks[i]));
      }
    }
  }

  /**
   `find_end_of_loop`: the index of the first `end` met with no nested block
   open. Running out of lines (an empty list included) is an IndexError in
   the source and a failure here.
   */
  function FindEndOfLoop(lines: seq<string>): (r: Result<nat>)
    ensures r.Success? ==> r.value < |lines|
    ensures r.Failure? ==> r.error == UnterminatedBlock
  {
    ScanEnd(Kinds(lines), 0, 0)
  }

  /**
   What `find_end_of_loop` finds: the first line that closes the block, and
   a failure exactly when no line does.
   */
  lemma EndOfLoopIsFirstClose(lines: seq<string>)
    ensures var r := FindEndOfLoop(lines);
      && (r.Success? ==> ClosesAt(Kinds(lines), r.value) && forall j :: 0 <= j < r.value ==> !ClosesAt(Kinds(lines), j))
      && (r.Failure? <==> forall j :: 0 <= j < |lines| ==> !ClosesAt(Kinds(lines), j))
  {
    var ks := Kinds(lines);
    assert ks[..0] == [];
    ScanEndFindsFirstClose(ks, 0, 0);
  }

  /** The recorded separators are exactly the separating lines before `i`, in order. */
  predicate Recorded(ks: seq<LineKind>, i: nat, seps: seq<nat>) {
    && Increasing(seps)
    && (forall k :: 0 <= k < |seps| ==> seps[k] < i && SeparatesAt(ks, seps[k]))
    && (forall j :: 0 <= j < i && SeparatesAt(ks, j) ==> j in seps)
  }

  /** Recording a separating line `i` keeps the record exact. */
  lemma RecordSeparator(ks: seq<LineKind>, i: nat, seps: seq<nat>)
    requires i < |ks| && Recorded(ks, i, seps) && SeparatesAt(ks, i)
    ensures Recorded(ks, i + 1, seps + [i])
  {
    var s' := seps + [i];
    forall k | 0 <= k < |s'|
      ensures s'[k] < i + 1 && SeparatesAt(ks, s'[k])
    {
      if k < |seps| {
        assert s'[k] == seps[k];
      }
    }
    forall a, b | 0 <= a < b < |s'|
      ensures s'[a] < s'[b]
    {
      assert s'[a] == seps[a];
    }
  }

  /** Passing a line that does not separate keeps the record exact. */
  lemma SkipLine(ks: seq<LineKind>, i: nat, seps: seq<nat>)
    requires i < |ks| && Recorded(ks, i, seps) && !SeparatesAt(ks, i)
    ensures Recorded(ks, i + 1, seps)
  {
  }

  /**
   `r` is a correct answer of `find_alternatives`: increasing, ending with
   the first closing line, and holding exactly the separating lines before it.
   */
  predicate Alternatives(ks: seq<LineKind>, r: seq<nat>) {
    && |r| >= 1 && Increasing(r)
    && ClosesAt(ks, r[|r| - 1]) && (forall j :: 0 <= j < r[|r| - 1] ==> !ClosesAt(ks, j))
    && (forall k :: 0 <= k < |r| - 1 ==> SeparatesAt(ks, r[k]))
    && (forall j :: 0 <= j < r[|r| - 1] && SeparatesAt(ks, j) ==> j in r)
  }

  /** The closing line ends the record. */
  lemma RecordClose(ks: seq<LineKind>, i: nat, seps: seq<nat>)
    requires Recorded(ks, i, seps)
    requires ClosesAt(ks, i) && forall j :: 0 <= j < i ==> !ClosesAt(ks, j)
    ensures Alternatives(ks, seps + [i])
  {
    var r := seps + [i];
    forall k | 0 <= k < |r| - 1
      ensures SeparatesAt(ks, r[k])
    {
      assert r[k] == seps[k];
    }
    forall a, b | 0 <= a < b < |r|
      ensures r[a] < r[b]
    {
      assert r[a] == seps[a];
    }
  }

  /**
   The loop of `find_alternatives` from line `i`, having recorded the
   separators `seps` before it. It stops where `find_end_of_loop` would, so
   its last index is the same.
   */
  function ScanAlternatives(ks: seq<LineKind>, i: nat, depth: nat, seps: seq<nat>): (r: Result<seq<nat>>)
    requires i <= |ks| && Increasing(seps) && forall k :: 0 <= k < |seps| ==> seps[k] < i
    ensures r.Success? <==> ScanEnd(ks, i, depth).Success?
    ensures r.Success? ==> |r.value| >= 1 && Increasing(r.value)
    ensures r.Success? ==> r.value[|r.value| - 1] == ScanEnd(ks, i, depth).value
    ensures r.Failure? ==> r.error == UnterminatedBlock
    decreases |ks| - i
  {
    if i == |ks| then Failure(UnterminatedBlock)
    else if ks[i] == EndLine && depth == 0 then
      Success(seps + [i])
    else if ks[i] == ElseLine && depth == 0 then
      ScanAlternatives(ks, i + 1, NextDepth(depth, ks[i]), seps + [i])
    else
      ScanAlternatives(ks, i + 1, NextDepth(depth, ks[i]), seps)
  }

  /**
   Started with an exact record of the separators before line `i`, the scan
   answers correctly.
   */
  lemma {:induction false} ScanAlternativesCorrect(ks: seq<LineKind>, i: nat, depth: nat, seps: seq<nat>)
    requires i <= |ks| && depth == Depth(ks[..i])
    requires forall j :: 0 <= j < i ==> !ClosesAt(ks, j)
    requires Recorded(ks, i, seps)
    ensures ScanAlternatives(ks, i, depth, seps).Success? ==> Alternatives(ks, ScanAlternatives(ks, i, depth, seps).value)
    decreases |ks| - i
  {
    if i < |ks| {
      if ks[i] == EndLine && depth == 0 {
        RecordClose(ks, i, seps);
      } else {
        ScanStep(ks, i, depth);
        if ks[i] == ElseLine && depth == 0 {
          RecordSeparator(ks, i, seps);
          ScanAlternativesCorrect(ks, i + 1, NextDepth(depth, ks[i]), seps + [i]);
        } else {
          SkipLine(ks, i, seps);
          ScanAlternativesCorrect(ks, i + 1, NextDepth(depth, ks[i]), seps);
        }
      }
    }
  }

  /**
   `find_alternatives`: the indices of the `else` lines met with no nested
   block open, in order, followed by the index of the closing `end`.
   */
  function FindAlternatives(lines: seq<string>): (r: Result<seq<nat>>)
    ensures r.Failure? ==> r.error == UnterminatedBlock
  {
    ScanAlternatives(Kinds(lines), 0, 0, [])
  }

  /**
   `find_alternatives` fails exactly when `find_end_of_loop` fails, and its
   last index is the one `find_end_of_loop` returns, since an `else` never
   changes the depth; the indices before it increase.
   */
  lemma AlternativesEndWithEndOfLoop(lines: seq<string>)
    ensures FindAlternatives(lines).Success? <==> FindEndOfLoop(lines).Success?
    ensures FindAlternatives(lines).Success? ==>
      var r := FindAlternatives(lines).value;
      && |r| >= 1 && Increasing(r)
      && r[|r| - 1] == FindEndOfLoop(lines).value < |lines|
  {
  }

  /**
   What `find_alternatives` finds besides the closing line: exactly the
   separating `else` lines before it, in order.
   */
  lemma AlternativesAreSeparators(lines: seq<string>)
    requires FindAlternatives(lines).Success?
    ensures var r := FindAlternatives(lines).value;
      && (forall k :: 0 <= k < |r| - 1 ==> SeparatesAt(Kinds(lines), r[k]))
      && (forall j :: 0 <= j < r[|r| - 1] && SeparatesAt(Kinds(lines), j) ==> j in r)
  {
    var ks := Kinds(lines);
    assert ks[..0] == [];
    ScanAlternativesCorrect(ks, 0, 0, []);
  }
}

=== FILE: Step.dfy ===
/**
 The step chain a sequence diagram parses into (`src/processing/structure/step.py`
 and its three subclasses). The abstract `Step` class with its virtual methods
 becomes one closed datatype; every variant keeps the optional forward link
 `next` (the source's `successor`). The backward `predecessor` link is written
 by the parser but read by no query, so it is not part of the model.
 */
module Steps {
  import opened Wrappers
  import opened Entities

  /** What an Interaction step carries besides its successor. */
  datatype Message = Message(source: Entity, target: Entity, returning: bool, description: string)

  /** One alternative of a Fork: its condition text and the head of its step chain. */
  datatype Branch = Branch(condition: string, head: Step)

  datatype Step =
    | Interaction(msg: Message, next: Option<Step>)
    | Loop(condition: string, body: Step, next: Option<Step>)
    | Fork(branches: seq<Branch>, next: Option<Step>)

  /** The branch conditions of a Fork, in branch order (the keys of the source's dict). */
  function Conditions(bs: seq<Branch>): (r: seq<string>)
    ensures |r| == |bs|
    ensures forall i :: 0 <= i < |bs| ==> r[i] == bs[i].condition
  {
    seq(|bs|, i requires 0 <= i < |bs| => bs[i].condition)
  }

  predicate Distinct<T(==)>(xs: seq<T>) {
    forall i, j :: 0 <= i < j < |xs| ==> xs[i] != xs[j]
  }

  /**
   The shape every parsed chain has: each Fork has at least one branch and its
   conditions are pairwise different (they are the keys of a dict). The metric
   code indexes the first branch of a Fork, so it relies on the first half.
   */
  predicate WellFormed(s: Step)
    decreases s
  {
    match s
    case Interaction(_, next) => WellFormedNext(next)
    case Loop(_, body, next) => WellFormed(body) && WellFormedNext(next)
    case Fork(bs, next) =>
      |bs| >= 1 && Distinct(Conditions(bs)) && WellFormedBranches(bs) && WellFormedNext(next)
  }

  predicate WellFormedNext(next: Option<Step>)
    decreases next
  {
    match next
    case None => true
    case Some(n) => WellFormed(n)
  }

  predicate WellFormedBranches(bs: seq<Branch>)
    decreases bs
  {
    |bs| == 0 || (WellFormed(bs[0].head) && WellFormedBranches(bs[1..]))
  }

  /** The parts of a well-formed step are well formed. */
  lemma WellFormedParts(s: Step)
    requires WellFormed(s)
    ensures s.next.Some? ==> WellFormed(s.next.value)
    ensures s.Loop? ==> WellFormed(s.body)
    ensures s.Fork? ==> |s.branches| >= 1 && WellFormed(s.branches[0].head) && WellFormedBranches(s.branches)
  {
  }

  /** Every branch of a well-formed branch list is well formed. */
  lemma {:induction false} WellFormedBranchesAll(bs: seq<Branch>)
    ensures WellFormedBranches(bs) <==> forall i :: 0 <= i < |bs| ==> WellFormed(bs[i].head)
    decreases |bs|
  {
    if |bs| > 0 {
      WellFormedBranchesAll(bs[1..]);
      assert forall i :: 1 <= i < |bs| ==> bs[i] == bs[1..][i - 1];
    }
  }

  /** Attach `n` as the successor of `s` (the parser's `step.successor = ...`). */
  function Attach(s: Step, n: Option<Step>): (r: Step)
    ensures r.next == n
    ensures r.Interaction? == s.Interaction? && r.Loop? == s.Loop? && r.Fork? == s.Fork?
    ensures r.(next := s.next) == s
  {
    s.(next := n)
  }

  /** Steps along the successor links, counting the step itself. */
  function ChainLength(s: Step): (r: nat)
    ensures r >= 1
    decreases s
  {
    1 + match s.next
      case None => 0
      case Some(n) => ChainLength(n)
  }

  /** The chain of Interactions carrying the given messages in order. */
  function Chain(ms: seq<Message>): (s: Step)
    requires |ms| > 0
    ensures s.Interaction? && s.msg == ms[0]
    ensures ChainLength(s) == |ms|
    ensures WellFormed(s)
    decreases |ms|
  {
    Interaction(ms[0], if |ms| == 1 then None else Some(Chain(ms[1..])))
  }
}

=== FILE: Text.dfy ===
/**
 The handful of Python `str` operations the diagram code relies on, written
 over `string` (= `seq<char>`): `strip`, `startswith`, `in`, and `split` on
 every occurrence of a non-empty separator.
 */
module Text {
  import opened Wrappers

  /** The blanks `strip` removes (Python strips every Unicode space; ASCII blanks suffice here). */
  predicate IsSpace(c: char) {
    c == ' ' || c == '\t' || c == '\n' || c == '\r'
  }

  predicate AllSpace(s: string) {
    forall i :: 0 <= i < |s| ==> IsSpace(s[i])
  }

  /** Neither end of `s` is a blank: exactly the strings `strip` leaves alone. */
  predicate Unpadded(s: string) {
    s == [] || (!IsSpace(s[0]) && !IsSpace(s[|s| - 1]))
  }

  /** The first non-blank at or after index `i`, or `|s|` when only blanks remain. */
  function SkipBlanks(s: string, i: nat): (j: nat)
    requires i <= |s|
    ensures i <= j <= |s|
    ensures forall k :: i <= k < j ==> IsSpace(s[k])
    ensures j < |s| ==> !IsSpace(s[j])
    decreases |s| - i
  {
    if i < |s| && IsSpace(s[i]) then SkipBlanks(s, i + 1) else i
  }

  /** One past the last non-blank before index `j` and at or after `lo`, or `lo` when there is none. */
  function BackBlanks(s: string, lo: nat, j: nat): (k: nat)
    requires lo <= j <= |s|
    ensures lo <= k <= j
    ensures forall m :: k <= m < j ==> IsSpace(s[m])
    ensures k > lo ==> !IsSpace(s[k - 1])
    decreases j
  {
    if j > lo && IsSpace(s[j - 1]) then BackBlanks(s, lo, j - 1) else j
  }

  /** Where the stripped text starts: after the leading blanks. */
  function StripStart(s: string): nat
  {
    SkipBlanks(s, 0)
  }

  /** Where the stripped text ends: before the trailing blanks. */
  function StripEnd(s: string): nat
  {
    BackBlanks(s, StripStart(s), |s|)
  }

  /** Python's `s.strip()`: drop leading and trailing blanks, keep the middle verbatim. */
  function Strip(s: string): (r: string)
    ensures Unpadded(r) && |r| <= |s|
  {
    s[StripStart(s)..StripEnd(s)]
  }

  /** What `strip` removes is blank on both sides, and what it keeps is the slice between. */
  lemma StripShape(s: string)
    ensures StripStart(s) <= StripEnd(s) <= |s|
    ensures Strip(s) == s[StripStart(s)..StripEnd(s)]
    ensures forall m :: 0 <= m < StripStart(s) ==> IsSpace(s[m])
    ensures forall m :: StripEnd(s) <= m < |s| ==> IsSpace(s[m])
  {
  }

  /** `strip` changes exactly the padded strings. */
  lemma StripFixedPoint(s: string)
    ensures Strip(s) == s <==> Unpadded(s)
  {
    if Unpadded(s) && |s| > 0 {
      assert StripStart(s) == 0;
      assert StripEnd(s) == |s|;
      assert s[0..|s|] == s;
    }
  }

  /** Skipping blanks from `i` lands on `j` when `[i, j)` is blank and `j` is not. */
  lemma {:induction false} SkipBlanksAt(s: string, i: nat, j: nat)
    requires i <= j <= |s|
    requires forall k :: i <= k < j ==> IsSpace(s[k])
    requires j < |s| ==> !IsSpace(s[j])
    ensures SkipBlanks(s, i) == j
    decreases j - i
  {
    if i < j {
      SkipBlanksAt(s, i + 1, j);
    }
  }

  /** Backing over blanks from `j` lands on `k` when `[k, j)` is blank and `k - 1` is not. */
  lemma {:induction false} BackBlanksAt(s: string, lo: nat, k: nat, j: nat)
    requires lo <= k <= j <= |s|
    requires forall m :: k <= m < j ==> IsSpace(s[m])
    requires k > lo ==> !IsSpace(s[k - 1])
    ensures BackBlanks(s, lo, j) == k
    decreases j - k
  {
    if k < j {
      BackBlanksAt(s, lo, k, j - 1);
    }
  }

  /** `strip` removes blank padding around an unpadded core, and nothing else. */
  lemma StripBlanks(pre: string, x: string, post: string)
    requires AllSpace(pre) && AllSpace(post) && Unpadded(x)
    ensures Strip(pre + x + post) == x
  {
    var s := pre + x + post;
    var a := |pre|;
    var b := |pre| + |x|;
    assert forall k :: 0 <= k < a ==> s[k] == pre[k];
    assert forall m :: b <= m < |s| ==> s[m] == post[m - b];
    if x == [] {
      SkipBlanksAt(s, 0, |s|);
      BackBlanksAt(s, |s|, |s|, |s|);
      assert Strip(s) == s[|s|..|s|];
    } else {
      assert s[a] == x[0] && s[b - 1] == x[|x| - 1];
      SkipBlanksAt(s, 0, a);
      BackBlanksAt(s, a, b, |s|);
      assert s[a..b] == x;
    }
  }

  /** Python's `s.startswith(p)`. */
  predicate StartsWith(s: string, p: string) {
    |p| <= |s| && s[..|p|] == p
  }

  /** Python's `s.endswith(p)`. */
  predicate EndsWith(s: string, p: string) {
    |p| <= |s| && s[|s| - |p|..] == p
  }

  /** On a string that starts with a non-blank, `strip` keeps exactly the prefixes ending in a non-blank. */
  lemma StripKeepsPrefix(s: string, p: string)
    requires |s| > 0 && !IsSpace(s[0])
    requires |p| > 0 && !IsSpace(p[|p| - 1])
    ensures StartsWith(Strip(s), p) <==> StartsWith(s, p)
  {
    StripShape(s);
    var b := StripEnd(s);
    assert StripStart(s) == 0;
    assert Strip(s) == s[..b];
    if StartsWith(s, p) {
      assert s[|p| - 1] == p[|p| - 1];
    }
  }

  /** Python's `s[1:-1]`: both end characters dropped, empty when fewer than two. */
  function DropEnds(s: string): (r: string)
    ensures |s| >= 2 ==> s == [s[0]] + r + [s[|s| - 1]]
    ensures |s| < 2 ==> r == []
  {
    if |s| >= 2 then s[1..|s| - 1] else []
  }

  /** A character that may appear in an entity identifier: an ASCII letter, digit or `_`. */
  predicate IsIdentChar(c: char) {
    ('a' <= c <= 'z') || ('A' <= c <= 'Z') || ('0' <= c <= '9') || c == '_'
  }

  /** A non-empty identifier; it holds no blank and none of the diagram's punctuation. */
  predicate IsIdent(s: string) {
    |s| > 0 && forall i :: 0 <= i < |s| ==> IsIdentChar(s[i])
  }

  /** `sep` occurs in `s` starting at index `j`. */
  predicate OccursAt(s: string, sep: string, j: nat) {
    j + |sep| <= |s| && s[j..j + |sep|] == sep
  }

  /** The first occurrence of `sep` in `s` at or after index `i`. */
  function IndexFrom(s: string, sep: string, i: nat): (r: Option<nat>)
    requires i <= |s|
    ensures r.Some? ==> i <= r.value && OccursAt(s, sep, r.value)
    ensures r.Some? ==> forall j :: i <= j < r.value ==> !OccursAt(s, sep, j)
    ensures r.None? ==> forall j :: i <= j ==> !OccursAt(s, sep, j)
    decreases |s| - i
  {
    if i + |sep| > |s| then None
    else if s[i..i + |sep|] == sep then Some(i)
    else IndexFrom(s, sep, i + 1)
  }

  /** Python's `s.find(sep)`, with `None` for -1. */
  function IndexOf(s: string, sep: string): (r: Option<nat>)
    ensures r.Some? ==> OccursAt(s, sep, r.value) && forall j :: 0 <= j < r.value ==> !OccursAt(s, sep, j)
    ensures r.None? ==> forall j :: 0 <= j ==> !OccursAt(s, sep, j)
  {
    IndexFrom(s, sep, 0)
  }

  /** Python's `sep in s`. */
  predicate Contains(s: string, sep: string) {
    IndexOf(s, sep).Some?
  }

  /** The first occurrence is the unique earliest one. */
  lemma IndexOfIsFirst(s: string, sep: string, k: nat)
    requires OccursAt(s, sep, k)
    requires forall j :: 0 <= j < k ==> !OccursAt(s, sep, j)
    ensures IndexOf(s, sep) == Some(k)
  {
  }

  /** No occurrence starts at a character that differs from the separator's first one. */
  lemma NotAtForeignChar(s: string, sep: string, j: nat)
    requires |sep| > 0 && j < |s| && s[j] != sep[0]
    ensures !OccursAt(s, sep, j)
  {
  }

  /** A string lacking one of the separator's characters cannot contain it. */
  lemma NotContainsMissingChar(s: string, sep: string, k: nat)
    requires k < |sep|
    requires forall i :: 0 <= i < |s| ==> s[i] != sep[k]
    ensures !Contains(s, sep)
  {
  }

  /** Glue pieces back together with `sep`, Python's `sep.join(parts)`. */
  function Join(parts: seq<string>, sep: string): string
    requires |parts| >= 1
    decreases |parts|
  {
    if |parts| == 1 then parts[0] else parts[0] + sep + Join(parts[1..], sep)
  }

  /** An occurrence inside a prefix is an occurrence in the whole string. */
  lemma OccursInPrefix(s: string, sep: string, i: nat, j: nat)
    requires i <= |s| && OccursAt(s[..i], sep, j)
    ensures OccursAt(s, sep, j)
  {
    assert s[..i][j..j + |sep|] == s[j..j + |sep|];
  }

  /**
   Python's `s.split(sep)`: the pieces between successive non-overlapping
   occurrences of `sep`, scanning left to right. The pieces are free of `sep`
   and re-join to `s`, and every cut is the leftmost possible one: no
   occurrence of `sep` starts inside a piece and runs into the separator after
   it. Together these pin the result down (`SplitUnique`), also for a
   separator that overlaps itself.
   */
  function Split(s: string, sep: string): (r: seq<string>)
    requires |sep| > 0
    ensures |r| >= 1
    ensures Join(r, sep) == s
    ensures forall k :: 0 <= k < |r| ==> !Contains(r[k], sep)
    ensures forall k :: 0 <= k < |r| - 1 ==> !Contains(r[k] + sep[..|sep| - 1], sep)
    ensures |r| == 1 <==> !Contains(s, sep)
    decreases |s|
  {
    match IndexOf(s, sep)
    case None => [s]
    case Some(i) =>
      var rest := Split(s[i + |sep|..], sep);
      SplitStep(s, sep, i, rest);
      [s[..i]] + rest
  }

  /** The facts `Split` needs about peeling off the piece before the first occurrence at `i`. */
  lemma SplitStep(s: string, sep: string, i: nat, rest: seq<string>)
    requires |sep| > 0 && IndexOf(s, sep) == Some(i)
    requires |rest| >= 1 && Join(rest, sep) == s[i + |sep|..]
    ensures Join([s[..i]] + rest, sep) == s
    ensures !Contains(s[..i], sep)
    ensures !Contains(s[..i] + sep[..|sep| - 1], sep)
  {
    var r := [s[..i]] + rest;
    assert r[0] == s[..i] && r[1..] == rest;
    assert Join(r, sep) == s[..i] + sep + Join(rest, sep);
    assert s == s[..i] + sep + s[i + |sep|..] by {
      assert s[i..i + |sep|] == sep;
      assert s == s[..i] + s[i..i + |sep|] + s[i + |sep|..];
    }
    NothingBeforeFirst(s, sep, i);
    NothingOverlapsFirst(s, sep, i);
  }

  /** No occurrence starts before the first one, even one overlapping it. */
  lemma NothingOverlapsFirst(s: string, sep: string, i: nat)
    requires |sep| > 0 && IndexOf(s, sep) == Some(i)
    ensures !Contains(s[..i] + sep[..|sep| - 1], sep)
  {
    var n := i + |sep| - 1;
    assert s[..i] + sep[..|sep| - 1] == s[..n] by {
      assert s[i..i + |sep|] == sep;
    }
    if Contains(s[..n], sep) {
      OccursInPrefix(s, sep, n, IndexOf(s[..n], sep).value);
      assert false;
    }
  }

  /** An occurrence that ends within a prefix is an occurrence in the prefix. */
  lemma OccursWithinPrefix(s: string, sep: string, n: nat, j: nat)
    requires OccursAt(s, sep, j) && j + |sep| <= n <= |s|
    ensures OccursAt(s[..n], sep, j)
  {
    assert s[..n][j..j + |sep|] == s[j..j + |sep|];
  }

  /** A cut that nothing overlaps from the left is the first occurrence of the separator. */
  lemma FirstCut(head: string, sep: string, tail: string)
    requires |sep| > 0 && !Contains(head + sep[..|sep| - 1], sep)
    ensures IndexOf(head + sep + tail, sep) == Some(|head|)
  {
    var s := head + sep + tail;
    var i := |head|;
    assert s[i..i + |sep|] == sep;
    assert head + sep[..|sep| - 1] == s[..i + |sep| - 1];
    forall j | 0 <= j < i
      ensures !OccursAt(s, sep, j)
    {
      if OccursAt(s, sep, j) {
        OccursWithinPrefix(s, sep, i + |sep| - 1, j);
        assert false;
      }
    }
    IndexOfIsFirst(s, sep, i);
  }

  /**
   The contract of `Split` has exactly one solution: any pieces that re-join
   to `s`, are free of `sep` and are cut leftmost are `Split(s, sep)`.
   */
  lemma {:induction false} SplitUnique(s: string, sep: string, r: seq<string>)
    requires |sep| > 0 && |r| >= 1 && Join(r, sep) == s
    requires forall k :: 0 <= k < |r| ==> !Contains(r[k], sep)
    requires forall k :: 0 <= k < |r| - 1 ==> !Contains(r[k] + sep[..|sep| - 1], sep)
    ensures r == Split(s, sep)
    decreases |r|
  {
    if |r| > 1 {
      var tail := Join(r[1..], sep);
      FirstCut(r[0], sep, tail);
      SplitUnique(tail, sep, r[1..]);
      assert r == [r[0]] + r[1..];
    }
  }

  /** The text before the first occurrence of a separator does not contain it. */
  lemma NothingBeforeFirst(s: string, sep: string, i: nat)
    requires |sep| > 0 && IndexOf(s, sep) == Some(i)
    ensures !Contains(s[..i], sep)
  {
    if Contains(s[..i], sep) {
      OccursInPrefix(s, sep, i, IndexOf(s[..i], sep).value);
      assert false;
    }
  }

  /** Stripping cannot create an occurrence of a separator. */
  lemma StripKeepsAbsence(s: string, sep: string)
    requires !Contains(s, sep)
    ensures !Contains(Strip(s), sep)
  {
    StripShape(s);
    var r := Strip(s);
    if Contains(r, sep) {
      var j := IndexOf(r, sep).value;
      OccursInSlice(s, sep, StripStart(s), StripEnd(s), j);
      assert false;
    }
  }

  /** An occurrence inside a slice is an occurrence in the whole string, shifted by the slice's start. */
  lemma OccursInSlice(s: string, sep: string, a: nat, b: nat, j: nat)
    requires a <= b <= |s| && OccursAt(s[a..b], sep, j)
    ensures OccursAt(s, sep, a + j)
  {
    var w := s[a + j..a + j + |sep|];
    var u := s[a..b][j..j + |sep|];
    assert forall m :: 0 <= m < |sep| ==> w[m] == u[m];
    assert w == u;
  }

  /** Python's `s.split(sep)[k]`, `None` where Python raises `IndexError`. */
  function Piece(s: string, sep: string, k: nat): (r: Option<string>)
    requires |sep| > 0
    ensures r.Some? <==> k < |Split(s, sep)|
    ensures r.Some? ==> r.value == Split(s, sep)[k]
    ensures k == 0 ==> r.Some?
    ensures k == 1 ==> (r.Some? <==> Contains(s, sep))
  {
    var parts := Split(s, sep);
    if k < |parts| then Some(parts[k]) else None
  }

  /** Splitting where the first occurrence is right after `a` peels `a` off. */
  lemma SplitAfter(a: string, sep: string, b: string)
    requires |sep| > 0
    requires forall j :: 0 <= j < |a| ==> !OccursAt(a + sep + b, sep, j)
    ensures Split(a + sep + b, sep) == [a] + Split(b, sep)
  {
    var s := a + sep + b;
    assert s[|a|..|a| + |sep|] == sep;
    IndexOfIsFirst(s, sep, |a|);
    assert s[..|a|] == a;
    assert s[|a| + |sep|..] == b;
  }

  /** A line `<keyword><text>` keeps its form under `strip`. */
  lemma KeywordLineUnpadded(kw: string, c: string)
    requires |kw| > 0 && !IsSpace(kw[0]) && |c| > 0 && Unpadded(c)
    ensures Strip(kw + c) == kw + c
  {
    var line := kw + c;
    assert line[0] == kw[0] && line[|line| - 1] == c[|c| - 1];
    StripFixedPoint(line);
  }

  /** A line `<keyword><text>` splits at the keyword into `""` and the text. */
  lemma KeywordLineParts(kw: string, c: string)
    requires |kw| > 0 && !Contains(c, kw)
    ensures Split(kw + c, kw) == ["", c]
  {
    var line := kw + c;
    assert line[0..|kw|] == kw;
    IndexOfIsFirst(line, kw, 0);
    assert line[..0] == [] && line[|kw|..] == c;
    SplitWhole(c, kw);
    assert Split(line, kw) == [[]] + [c];
  }

  /** A string free of the separator splits into itself. */
  lemma SplitWhole(s: string, sep: string)
    requires |sep| > 0 && !Contains(s, sep)
    ensures Split(s, sep) == [s]
  {
  }
}

=== FILE: UseCase.dfy ===
/**
 A parsed use case and its metrics (`src/processing/structure/usecase.py`),
 together with the split of a diagram's lines into entity declarations and
 steps (`parse_use_case`, `src/processing/eval_scenarios.py`).
 */
module UseCases {
  import opened Wrappers
  import opened Text
  import opened Entities
  import opened Steps
  import opened Parser
  import opened Metrics

  datatype UseCase = UseCase(req: string, ucid: string, entities: seq<Entity>, initial: Step)

  /** The entities a list comprehension `[e for e in es if keep(e)]` keeps, in order. */
  function Filter(es: seq<Entity>, keep: Entity -> bool): (r: seq<Entity>)
    ensures |r| <= |es|
    ensures forall e :: e in r <==> e in es && keep(e)
    ensures forall e :: multiset(r)[e] == if keep(e) then multiset(es)[e] else 0
    decreases |es|
  {
    if |es| == 0 then []
    else
      assert es == [es[0]] + es[1..];
      (if keep(es[0]) then [es[0]] else []) + Filter(es[1..], keep)
  }

  /**
   `get_number_of_entities(only_actors, only_explicit)`, branch for branch:
   both flags keep the explicit actors, one flag keeps the actors or the
   explicit entities, no flag keeps every entity. Each combination counts
   exactly the entities that meet the flags set.
   */
  function NumberOfEntities(uc: UseCase, onlyActors: bool, onlyExplicit: bool): (r: nat)
    ensures r == CountSelected(uc.entities, onlyActors, onlyExplicit)
  {
    if onlyActors then
      if onlyExplicit then
        var keep := (e: Entity) => e.actor && e.explicit;
        FilterCounts(uc.entities, keep, true, true);
        |Filter(uc.entities, keep)|
      else
        var keep := (e: Entity) => e.actor;
        FilterCounts(uc.entities, keep, true, false);
        |Filter(uc.entities, keep)|
    else if onlyExplicit then
      var keep := (e: Entity) => e.explicit;
      FilterCounts(uc.entities, keep, false, true);
      |Filter(uc.entities, keep)|
    else
      NoFilterCountsAll(uc.entities);
      |uc.entities|
  }

  /** The reference: an entity passes when it meets every requested filter. */
  predicate Selected(e: Entity, onlyActors: bool, onlyExplicit: bool) {
    (!onlyActors || e.actor) && (!onlyExplicit || e.explicit)
  }

  function CountSelected(es: seq<Entity>, onlyActors: bool, onlyExplicit: bool): (r: nat)
    ensures r <= |es|
    decreases |es|
  {
    if |es| == 0 then 0
    else (if Selected(es[0], onlyActors, onlyExplicit) then 1 else 0) + CountSelected(es[1..], onlyActors, onlyExplicit)
  }

  lemma {:induction false} FilterCounts(es: seq<Entity>, keep: Entity -> bool, onlyActors: bool, onlyExplicit: bool)
    requires forall e :: keep(e) == Selected(e, onlyActors, onlyExplicit)
    ensures |Filter(es, keep)| == CountSelected(es, onlyActors, onlyExplicit)
    decreases |es|
  {
    if |es| > 0 {
      FilterCounts(es[1..], keep, onlyActors, onlyExplicit);
    }
  }

  lemma {:induction false} NoFilterCountsAll(es: seq<Entity>)
    ensures CountSelected(es, false, false) == |es|
    decreases |es|
  {
    if |es| > 0 {
      NoFilterCountsAll(es[1..]);
    }
  }

  /** Counting by the reference, each filter keeps at most what a weaker one keeps. */
  lemma {:induction false} SelectionBounds(es: seq<Entity>)
    ensures CountSelected(es, true, true) <= CountSelected(es, true, false) <= CountSelected(es, false, false)
    ensures CountSelected(es, true, true) <= CountSelected(es, false, true) <= CountSelected(es, false, false)
    decreases |es|
  {
    if |es| > 0 {
      SelectionBounds(es[1..]);
    }
  }

  /** The entity filters of a use case, as the source promises them. */
  lemma EntityFilterBounds(uc: UseCase)
    ensures NumberOfEntities(uc, false, false) == |uc.entities|
    ensures NumberOfEntities(uc, true, true) <= NumberOfEntities(uc, true, false) <= NumberOfEntities(uc, false, false)
    ensures NumberOfEntities(uc, true, true) <= NumberOfEntities(uc, false, true) <= NumberOfEntities(uc, false, false)
    ensures NumberOfEntities(uc, true, false) + NumberOfEntities(uc, false, true)
      <= NumberOfEntities(uc, false, false) + NumberOfEntities(uc, true, true)
  {
    SelectionBounds(uc.entities);
    InclusionExclusion(uc.entities);
  }

  /** Actors plus explicit entities never exceed all entities plus the explicit actors. */
  lemma {:induction false} InclusionExclusion(es: seq<Entity>)
    ensures CountSelected(es, true, false) + CountSelected(es, false, true)
      <= CountSelected(es, false, false) + CountSelected(es, true, true)
    decreases |es|
  {
    if |es| > 0 {
      InclusionExclusion(es[1..]);
    }
  }

  /** `get_number_of_interactions(only_userlevel)`: the messages of the diagram the filter keeps. */
  function NumberOfInteractions(uc: UseCase, userLevel: bool): (r: nat)
    ensures r == Kept(Messages(uc.initial), userLevel)
    ensures !userLevel ==> r == |Messages(uc.initial)|
    ensures r <= |Messages(uc.initial)|
  {
    CountInteractions(uc.initial, userLevel)
  }

  /**
   `get_number_of_consecutive_interactions()`: the consecutive count started
   without context. It is the adjacent pairs along the main path plus what
   the side branches add, and stays below the number of messages.
   */
  function NumberOfConsecutiveInteractions(uc: UseCase): (r: nat)
    requires WellFormed(uc.initial)
    ensures r == Adjacent(MainPath(uc.initial), None) + OffPath(uc.initial, None)
    ensures r < |Messages(uc.initial)|
  {
    ConsecutiveSplit(uc.initial, None);
    ConsecutiveBound(uc.initial, None);
    Consecutive(uc.initial, None)
  }

  /** A line the declaration loop takes: it starts, unstripped, with `actor` or `participant`. */
  predicate IsDeclaration(line: string) {
    StartsWith(line, "actor") || StartsWith(line, "participant")
  }

  /** The number of leading declaration lines. */
  function DeclarationCount(lines: seq<string>): (n: nat)
    ensures n <= |lines|
    ensures forall j :: 0 <= j < n ==> IsDeclaration(lines[j])
    ensures n < |lines| ==> !IsDeclaration(lines[n])
    decreases |lines|
  {
    if |lines| == 0 || !IsDeclaration(lines[0]) then 0
    else 1 + DeclarationCount(lines[1..])
  }

  /**
   The declaration loop of `parse_use_case`: every leading declaration line
   is parsed as an entity, in order, failing at the first malformed one, and
   the index of the first other line is returned. When every line is a
   declaration the loop indexes past the end, after parsing them all.
   */
  function ParseDeclarations(lines: seq<string>): (r: Result<(seq<Entity>, nat)>)
    ensures r.Success? ==> r.value.1 == DeclarationCount(lines) < |lines|
    ensures r.Success? ==> |r.value.0| == r.value.1
    ensures r.Success? ==> forall k :: 0 <= k < r.value.1 ==> ParseEntity(lines[k]) == Success(r.value.0[k])
  {
    var n := DeclarationCount(lines);
    var es :- MapResult(lines[..n], ParseEntity);
    if n == |lines| then Failure(NoStepLines) else Success((es, n))
  }

  /**
   The loop runs out of lines exactly when every line is a declaration that
   parses: a malformed declaration fails first, with its own error.
   */
  lemma DeclarationsRunOut(lines: seq<string>)
    ensures ParseDeclarations(lines) == Failure(NoStepLines) <==>
      forall j :: 0 <= j < |lines| ==> IsDeclaration(lines[j]) && ParseEntity(lines[j]).Success?
  {
    if ParseDeclarations(lines) == Failure(NoStepLines) {
      RunOutMeansAllDeclarations(lines);
    }
    if forall j :: 0 <= j < |lines| ==> IsDeclaration(lines[j]) && ParseEntity(lines[j]).Success? {
      AllDeclarationsRunOut(lines);
    }
  }

  lemma RunOutMeansAllDeclarations(lines: seq<string>)
    requires ParseDeclarations(lines) == Failure(NoStepLines)
    ensures forall j :: 0 <= j < |lines| ==> IsDeclaration(lines[j]) && ParseEntity(lines[j]).Success?
  {
    var n := DeclarationCount(lines);
    var xs := lines[..n];
    var m := MapResult(xs, ParseEntity);
    if m.Failure? {
      assert false;
    }
    assert n == |lines|;
    assert xs == lines;
  }

  lemma AllDeclarationsRunOut(lines: seq<string>)
    requires forall j :: 0 <= j < |lines| ==> IsDeclaration(lines[j]) && ParseEntity(lines[j]).Success?
    ensures ParseDeclarations(lines) == Failure(NoStepLines)
  {
    var n := DeclarationCount(lines);
    assert n == |lines|;
    var xs := lines[..n];
    assert xs == lines;
    assert forall i :: 0 <= i < |xs| ==> ParseEntity(xs[i]).Success?;
    var m := MapResult(xs, ParseEntity);
    assert m.Success?;
  }

  /**
   `parse_use_case` after its text clean-up: the leading declarations become
   the entities and the remaining lines the step chain.
   */
  function ParseUseCase(req: string, ucid: string, lines: seq<string>): (r: Result<UseCase>)
    ensures r.Success? ==> WellFormed(r.value.initial)
    ensures r.Success? ==> r.value.req == req && r.value.ucid == ucid
    ensures r.Success? ==>
      && |r.value.entities| == DeclarationCount(lines) < |lines|
      && forall k :: 0 <= k < |r.value.entities| ==> ParseEntity(lines[k]) == Success(r.value.entities[k])
    ensures r.Success? ==> Parse(lines[DeclarationCount(lines)..], r.value.entities) == Success(r.value.initial)
  {
    var d :- ParseDeclarations(lines);
    var first :- Parse(lines[d.1..], d.0);
    Success(UseCase(req, ucid, d.0, first))
  }
}

=== FILE: Wrappers.dfy ===
/**
 Failure-compatible wrappers shared by the whole model.

 The diagram code reports every malformed input by indexing past the end of a
 Python list (an `IndexError`). Here each such point becomes a `Failure` whose
 `ParseError` names the index that ran out; the kinds only document where the
 first out-of-range access happens, they are not distinct exception classes.
 */
module Wrappers {

  datatype Option<+T> = None | Some(value: T)

  /** Why a parse stopped: the list that was indexed past its end. */
  datatype ParseError =
    | MissingKeyword      // `split('actor ')[1]` and friends: the keyword is absent
    | MissingSeparator    // `split(' AS ')[1]`: no name part in a declaration
    | UnknownEntity       // `entity_match[0]`: no declared entity has that identifier
    | MissingArrow        // `entities[1]`: no `->>` / `-->>` arrow in an interaction
    | MissingLabel        // `parts[1]`: no ` : ` label separator in an interaction
    | EmptyBlock          // `lines[0]` of an empty line list (an empty block body)
    | UnterminatedBlock   // `lines[index]` ran past the end before a matching `end`
    | NoStepLines         // `lines[i]` of the declaration loop ran past the end: no line follows the declarations

  datatype Result<+T> = Success(value: T) | Failure(error: ParseError) {

    predicate IsFailure() {
      Failure?
    }

    function PropagateFailure<U>(): Result<U>
      requires Failure?
    {
      Failure(error)
    }

    function Extract(): T
      requires Success?
    {
      value
    }
  }

  /**
   Apply `f` to every element in order, stopping at the first failure: a
   Python loop that appends `f(x)` for each `x` and lets the first exception
   escape.
   */
  function MapResult<A, B>(xs: seq<A>, f: A -> Result<B>): (r: Result<seq<B>>)
    ensures r.Success? <==> forall i :: 0 <= i < |xs| ==> f(xs[i]).Success?
    ensures r.Success? ==> |r.value| == |xs|
    ensures r.Success? ==> forall i :: 0 <= i < |xs| ==> f(xs[i]) == Success(r.value[i])
    ensures r.Failure? ==>
      exists i :: 0 <= i < |xs| && f(xs[i]) == Failure(r.error) && forall j :: 0 <= j < i ==> f(xs[j]).Success?
    decreases |xs|
  {
    if |xs| == 0 then Success([])
    else
      match f(xs[0])
      case Failure(e) => Failure(e)
      case Success(y) =>
        match MapResult(xs[1..], f)
        case Failure(e) =>
          MapResultShift(xs, f, e);
          Failure(e)
        case Success(ys) =>
          assert forall i :: 1 <= i < |xs| ==> xs[i] == xs[1..][i - 1];
          Success([y] + ys)
  }

  /** A failure of the tail is a first failure of the whole list when the head succeeds. */
  lemma MapResultShift<A, B>(xs: seq<A>, f: A -> Result<B>, e: ParseError)
    requires |xs| > 0 && f(xs[0]).Success?
    requires exists i ::
      0 <= i < |xs| - 1 && f(xs[1..][i]) == Failure(e) && forall j :: 0 <= j < i ==> f(xs[1..][j]).Success?
    ensures exists i ::
      0 <= i < |xs| && f(xs[i]) == Failure(e) && forall j :: 0 <= j < i ==> f(xs[j]).Success?
  {
    var i :| 0 <= i < |xs| - 1 && f(xs[1..][i]) == Failure(e)
      && forall j :: 0 <= j < i ==> f(xs[1..][j]).Success?;
    assert f(xs[i + 1]) == Failure(e);
    forall j | 0 <= j < i + 1
      ensures f(xs[j]).Success?
    {
      if j > 0 {
        assert xs[j] == xs[1..][j - 1];
      }
    }
  }

  /**
   All the values of a list of results, or the first failure among them: the
   values read in order, stopping at the first that could not be read.
   */
  function Collect<T>(rs: seq<Result<T>>): (r: Result<seq<T>>)
    ensures r.Success? <==> forall i :: 0 <= i < |rs| ==> rs[i].Success?
    ensures r.Success? ==> |r.value| == |rs| && forall i :: 0 <= i < |rs| ==> rs[i] == Success(r.value[i])
    ensures r.Failure? ==>
      exists i :: 0 <= i < |rs| && rs[i] == Failure(r.error) && forall j :: 0 <= j < i ==> rs[j].Success?
    decreases |rs|
  {
    if |rs| == 0 then Success([])
    else
      match rs[0]
      case Failure(e) => Failure(e)
      case Success(x) =>
        match Collect(rs[1..])
        case Failure(e) =>
          CollectShift(rs, e);
          Failure(e)
        case Success(xs) =>
          assert forall i :: 1 <= i < |rs| ==> rs[i] == rs[1..][i - 1];
          Success([x] + xs)
  }

  /** A first failure of the tail is a first failure of the whole list when the head succeeds. */
  lemma CollectShift<T>(rs: seq<Result<T>>, e: ParseError)
    requires |rs| > 0 && rs[0].Success?
    requires exists i :: 0 <= i < |rs| - 1 && rs[1..][i] == Failure(e) && forall j :: 0 <= j < i ==> rs[1..][j].Success?
    ensures exists i :: 0 <= i < |rs| && rs[i] == Failure(e) && forall j :: 0 <= j < i ==> rs[j].Success?
  {
    var i :| 0 <= i < |rs| - 1 && rs[1..][i] == Failure(e) && forall j :: 0 <= j < i ==> rs[1..][j].Success?;
    assert rs[i + 1] == Failure(e);
    forall j | 0 <= j < i + 1
      ensures rs[j].Success?
    {
      if j > 0 {
        assert rs[j] == rs[1..][j - 1];
      }
    }
  }
}
